=== FILE: README.md ===
# Portfolio site rules, modelled in Dafny

A personal portfolio site ships two scripts. `script.js` drives the page:
- a typing banner that cycles through five role phrases;
- a contact form with field validation;
- a dark/light theme pill;
- scroll-driven navbar and navigation highlighting;
- a skill filter.

`floating-motion.js` makes page elements float. Each element has a motion record in a registry. Hover listeners steer its tilt and scale. Every animation frame, elements in a band around the viewport are pushed away from a nearby (smoothed) pointer, bob up and down, and ease every channel towards its target. The same file animates in-page link scrolling with a cubic ease-in-out curve.

This project models those rule sets as immutable datatypes and pure functions, with a few loops as methods. It proves properties about them:
- Pixel, ratio and time values are exact `real`s.
- Strings are `seq<char>`. The form validator counts a JavaScript `length` in UTF-16 code units. The typing animation counts characters, which is the same thing for roles made only of characters up to U+FFFF, as the page's five roles are.
- DOM reads, storage, media queries, `Math.random`, `Math.sqrt`, `Math.atan2`, `Math.cos` and `Math.sin` are parameters.

Modules, one per concern:

| file | module | what it holds |
|---|---|---|
| `optional.dfy` | `Optional` | `Option` |
| `jstext.dfy` | `JsText` | `trim`, `substring`, UTF-16 `length`, the `\s` class |
| `typing.dfy` | `Typing` | the `typeText` state machine, stated for any non-empty list of roles |
| `contact_form.dfy` | `ContactForm` | `validateField`, `isValidEmail`, the submit aggregation |
| `theme.dfy` | `Theme` | start theme, `setTheme`, toggle |
| `scroll_effects.dfy` | `ScrollEffects` | navbar and scroll-to-top thresholds, `updateActiveNavigation` |
| `skill_filter.dfy` | `SkillFilter` | the filter-button click |
| `motion_config.dfy` | `MotionConfig` | the motion `CONFIG` and its mobile override |
| `arith.dfy` | `RealArith` | a named real product `Mul` and `Pow`, with small algebra facts |
| `smoothing.dfy` | `Smoothing` | the fixed-fraction smoothing step and its convergence |
| `floating_motion.dfy` | `FloatingMotion` | registry, hover listeners, pointer, one animation frame |
| `easing.dfy` | `SmoothScroll` | the animated in-page scroll and both cubic easings |

Two behaviours of the code are easy to misread, and the model follows the code in both:
- **Mobile override.** It applies when `window.innerWidth <= 768`, so a width of exactly 768 counts as mobile and is reduced too. It runs after `observer.observe(document.body, …)` (floating-motion.js:324-334), so it takes effect only when the script loads after `<body>` exists; the markup is not part of the model, and the model takes that load order as given.
- **Removed elements.** A frame reads the rectangle of every registered element, including one that has been removed from the page; the code has no existence check. The model takes a rectangle for every registered element as an input.

## Model

| member | source | states |
|---|---|---|
| Typing.Next | script.js:171-194 | From a valid state, for any non-empty role list, the role index stays in range and the character index stays in `[-1, len+1]`. The role changes only when a deletion has run out, and then to the next role mod the number of roles. |
| Typing.Step | script.js:171-194 | The same invariant and role rule as `Next`. Text is written exactly when the character index moves by one in the phase's direction. That text is `"I am "` plus the role's prefix of length `clamp(charIndex)`. |
| Typing.NextDelay | script.js:174-192 | The next call comes 100–150 ms later after typing a character (given `Math.random()` in `[0, 1)`). It comes 50 ms after deleting one, 1200 ms at the turn from typing to deleting, and 100 ms after switching role. |
| Typing.StepsAdd | script.js:171-194 | Running `a + b` calls is running `a` calls and then `b` more from where they stopped. |
| Typing.TypingRun | script.js:174-178 | From any typing state, the index climbs one per call to `len + 1`, with no change of role or phase. |
| Typing.DeletingRun | script.js:179-183 | From any deleting state, the index falls one per call to `-1`, with no change of role or phase. |
| Typing.TurnToDelete | script.js:184-187 | Typing that has reached `len + 1` turns to deleting in one call, keeping role and index. |
| Typing.TurnToNextRole | script.js:188-191 | Deleting that has reached `-1` turns, in one call, to typing the next role (cyclically), with the index left at `-1`. |
| Typing.RoleFinish | script.js:171-194 | From any typing state `(r, k)`, exactly `2 * len + 5 - k` calls lead to `(r + 1 mod n, -1, typing)`. |
| Typing.RoleCycle | script.js:171-194 | From the rest state `(r, -1, typing)`, exactly `2 * len + 6` calls lead to `(r + 1 mod n, -1, typing)`. |
| Typing.FirstRole | script.js:11-194 | On the page's five roles, from the constructor's state `(0, 0, typing)`, 35 calls reach the rest state of the second role. |
| JsText.Substring | script.js:177 | `substring(0, k)` is the prefix of length `k` clamped into `[0, len]`. It is empty for `k <= 0` and the whole string for `k >= len`. |
| JsText.Trim | script.js:483 | `trim` never lengthens its argument. What it returns is characterised by `TrimIsCore`, `TrimOfPadded` and `TrimIdempotent`. |
| JsText.TrimStartShape | script.js:483 | Removing leading whitespace removes only whitespace, keeps the rest as a suffix, and leaves a string that does not start with whitespace. |
| JsText.TrimEndShape | script.js:483 | Removing trailing whitespace removes only whitespace, keeps a prefix, and leaves a string that does not end with whitespace. |
| JsText.TrimIsCore | script.js:483 | `trim` returns a contiguous piece of its argument with only whitespace around it and no whitespace at either end. |
| JsText.TrimOfPadded | script.js:483 | Any whitespace around a trimmed string is removed exactly. |
| JsText.TrimIdempotent | script.js:483 | Trimming twice is trimming once. |
| JsText.Utf16Length | script.js:497 | `length` counts one code unit for a character up to U+FFFF and two for one beyond it. It lies between `|s|` and `2|s|` and is 0 only for the empty string. |
| JsText.Utf16Concat | script.js:497 | Code units add up over concatenation. With the one-character case, this fixes the `length` of every string. |
| ContactForm.IsValidEmail | script.js:533-536 | The address check read structurally: no whitespace, exactly one `@`, something before it, and a `.` after it with text on both sides. `EmailPatternIff` proves this accepts exactly the strings the regular expression matches. |
| ContactForm.EmailPatternIff | script.js:533-536 | An address is accepted exactly when it matches `^[^\s@]+@[^\s@]+\.[^\s@]+$`. That means exactly one `@`, no whitespace, a non-empty part before the `@`, and a `.` after it with text on both sides. |
| ContactForm.ValidEmailMatches | script.js:533-536 | The structural reading implies a match of the regular expression. |
| ContactForm.MatchedEmailIsValid | script.js:533-536 | A match of the regular expression satisfies the structural reading. |
| ContactForm.ValidateField | script.js:482-510 | A field is valid exactly when all four checks pass: non-blank after trimming, an address if the type is `email`, at least 2 code units if named `name`, at least 10 if named `message`. |
| ContactForm.ErrorPrecedence | script.js:491-503 | A blank value is reported as required whatever the type or name. A rejected address is reported as such whatever the name. An invalid field shows one of the four messages. Once a field is non-blank and, if typed `email`, well formed, a short `name` is reported before the `message` length, whatever the type. |
| ContactForm.NameRule | script.js:491-499 | A `name` field that is not typed `email`, or holds a well-formed address, passes exactly when its trimmed value has at least 2 code units. Otherwise it is reported as missing or as too short. |
| ContactForm.MessageRule | script.js:491-503 | A `message` field that is not typed `email`, or holds a well-formed address, passes exactly when its trimmed value has at least 10 code units. Otherwise it is reported as missing or as too short. |
| ContactForm.OtherFieldRule | script.js:491-503 | Any other field that is not typed `email`, or holds a well-formed address, passes exactly when it is not blank. |
| ContactForm.PaddingIrrelevant | script.js:483 | Adding whitespace around a field's value never changes its verdict. |
| ContactForm.ValidateForm | script.js:545-552 | Every field is validated, in order, with no early exit. The form is valid exactly when every field is acceptable. |
| ContactForm.HandleFormSubmit | script.js:539-557 | The form goes on to sending exactly when every field is acceptable. Otherwise it is rejected with "Please fix the errors above". Each field then shows its own `ValidateField` verdict, and at least one of them is invalid. |
| Theme.SetTheme | script.js:779-784 | The body class, label, icon and `aria-pressed` all agree with the requested state. |
| Theme.StartDark | script.js:765-770 | A non-empty saved value starts dark exactly when it is `"dark"`. A missing or empty one defers to the OS preference, which is `undefined` when `window.matchMedia` is missing. |
| Theme.SetThemeUndefined | script.js:779-784 | `setTheme(undefined)` flips the body's `dark` class and leaves label, icon and `aria-pressed` out of step with it. |
| Theme.Start | script.js:765-771 | A defined start state renders coherently and shows that state. An undefined one flips the markup's class and leaves the view incoherent. |
| Theme.NoMatchMediaMismatch | script.js:765-771 | Without `matchMedia` and with nothing saved, a plain body turns dark while the pill reads "light". |
| Theme.FirstClickCoherent | script.js:773-777 | Whatever the first render was, the first click negates the body class and leaves a coherent view. |
| Theme.Toggle | script.js:773-777 | A click negates the state, keeps the view coherent, and stores `"dark"` exactly when the new state is dark, otherwise `"light"`. |
| Theme.ToggleThenReload | script.js:765-777 | The value a click stores brings back the same view on the next load, whatever the OS prefers, even without `matchMedia`, and whatever the markup. |
| Theme.ToggleTwice | script.js:773-777 | Two clicks restore a coherent view exactly. |
| ScrollEffects.NavbarScrolled | script.js:236 | The navbar takes the `scrolled` class when `scrollTop` exceeds the 100 px threshold; `ScrollTopImpliesScrolled` pins it to `scrollTop > 100`. |
| ScrollEffects.ScrollTopVisible | script.js:248 | The scroll-to-top button takes the `visible` class when `scrollTop` exceeds three thresholds; `ScrollTopImpliesScrolled` pins it to `scrollTop > 300` and shows it implies `NavbarScrolled`. |
| ScrollEffects.ScrollTopImpliesScrolled | script.js:233-254 | The navbar is `scrolled` exactly when `scrollTop > 100`. The scroll-to-top button is `visible` exactly when `scrollTop > 300`, so the button never shows while the navbar is unscrolled. |
| ScrollEffects.LastOnLine | script.js:666-671 | Finds the last section whose rectangle straddles the line 100 px below the viewport top. Returns none exactly when no section does. |
| ScrollEffects.UpdateActiveNavigation | script.js:660-679 | The current id is the id of the last section on the line, or `''`. A link is active exactly when its `href` is `'#'` plus that id. With no section on the line, only a bare `'#'` link is active. |
| SkillFilter.ApplyFilter | script.js:344-372 | Exactly the clicked button is active. The `all` button selects every card for showing. Any other button selects exactly the cards of its own category. A missing category on both sides counts as equal. The selection is the branch taken at line 355, not the final display (see "## Left out"). |
| MotionConfig.ForViewport | floating-motion.js:330-334 | At a width of 768 or less, only the follow strength (to 0.01) and the float amplitude (to 10) change. Wider viewports keep the configuration as it is. |
| MotionConfig.EffectiveConfigSane | floating-motion.js:10-24 | The configuration in force is positive with a per-frame fraction in `(0, 1)`, and the mobile one moves things no more than the default. |
| FloatingMotion.NewMotionState | floating-motion.js:59-85 | A new record is at rest: zero translation and tilt, scale 1, targets equal to current values. It is not hovered and remembers its rectangle. |
| FloatingMotion.RegistrationRanges | floating-motion.js:73-78 | Given random values in `[0, 1)`, the phase is in `[0, 2π)`. The speed is in `[0.8, 1.2)` times the configured speed. The amplitude and the follow strength are in `[0.5, 1.0)` times their configured values. |
| FloatingMotion.Register | floating-motion.js:58-117 | Insert-if-absent. A present element keeps its state and gets no second set of listeners. A new one gets a fresh record. Every registered element keeps exactly one set of listeners. |
| FloatingMotion.InitFloatingElements | floating-motion.js:38-121 | The registry grows by exactly the new candidates. Existing entries, including motion in progress, are untouched. Each new entry is the at-rest record built from the rect and random draws of the first candidate carrying its id. The one-set-of-listeners invariant is kept. |
| FloatingMotion.DiscoveredRanges | floating-motion.js:55-85 | Given random values in `[0, 1)` for every candidate, every entry discovery adds has its phase, speed, amplitude and follow strength in the ranges of `RegistrationRanges`. |
| FloatingMotion.InitAllPresent | floating-motion.js:58 | Discovering only elements that are already registered changes nothing. |
| FloatingMotion.InitIdempotent | floating-motion.js:320-322 | Re-running discovery over the same elements, as the mutation observer does, changes nothing. |
| FloatingMotion.Resize | floating-motion.js:278-283 | Every entry's remembered rectangle is refreshed and nothing else changes. |
| FloatingMotion.MouseEnter | floating-motion.js:92-96 | Hovered, with a target scale of 1.05. Tilt target and motion are unchanged. |
| FloatingMotion.MouseLeave | floating-motion.js:98-103 | Not hovered, with a target scale of 1 and a tilt target of 0 whatever the tilt was. Motion is unchanged. |
| FloatingMotion.MouseMove | floating-motion.js:105-117 | Only the tilt target changes, and only while hovered. With the pointer over the element, the tilt is at most half the strength either way and leans to the pointer's side. |
| FloatingMotion.TiltBound | floating-motion.js:112-115 | The offset from the centre as a fraction of the width, times the tilt strength, stays within half the strength over the element. It is non-negative exactly on the right half. |
| FloatingMotion.MouseMovesKeepHover | floating-motion.js:105-117 | Any run of moves changes neither the hover state, the scale target, nor any motion value. |
| FloatingMotion.HoverEpisodeLeavesNoTrace | floating-motion.js:92-117 | Enter, any moves, leave ends exactly where a bare leave does. |
| FloatingMotion.InitialPointer | floating-motion.js:27-30 | At load the pointer and its target sit at the viewport centre. |
| FloatingMotion.PointerMove | floating-motion.js:126-129 | A pointer event moves only the target. |
| FloatingMotion.SmoothPointer | floating-motion.js:190-191 | Each frame leaves the pointer's gap to its target at 0.9 times the old gap, on each axis. |
| FloatingMotion.Falloff | floating-motion.js:147 | Below the cap the falloff `(cap - d) / cap` lies in `(0, 1]`, and is 1 at distance 0. |
| FloatingMotion.Push | floating-motion.js:144-155 | At or beyond the cap the pointer term is exactly `(0, 0)`. |
| FloatingMotion.PushGeometry | floating-motion.js:146-151 | Inside the cap the push has length `falloff * 20 * followStrength` and points straight away from the pointer. At distance 0 it is `(-strength, 0)`, the maximal push. |
| FloatingMotion.FloatingStep | floating-motion.js:134-166 | The new target is the pointer push, plus the bobbing term on the vertical axis. Beyond the cap, `targetX` is 0 and `targetY` is exactly the bobbing term. Every channel's gap to its target becomes `1 - transitionSpeed` times the old gap. Hover targets, parameters and hover state are untouched. |
| FloatingMotion.StepPushesAway | floating-motion.js:144-159 | Inside the cap, a frame's target, without its bobbing term, has length `falloff * 20 * followStrength` and points straight away from the pointer. |
| FloatingMotion.SettledStaysPut | floating-motion.js:162-165 | A channel at its target stays there. A resting element far from the pointer with a zero bobbing term stays at rest. |
| FloatingMotion.AnimateFrame | floating-motion.js:185-209 | The pointer is smoothed. Every element in the band gets one floating step, and every element outside it is left exactly as it was. Membership, listeners and configuration do not change. |
| FloatingMotion.Visible | floating-motion.js:197-200 | The animated band: the rectangle's top is above `innerHeight + 100` and its bottom below `-100`. `AnimateFrame` and `OffscreenFrozen` show that it decides exactly which elements move in a frame. |
| FloatingMotion.OffscreenFrozen | floating-motion.js:196-205 | An element wholly above or wholly below the band is frozen for the frame. |
| Smoothing.Approach | floating-motion.js:162-165 | One step leaves the gap at `1 - k` times the old gap. A value at its target stays. With `k` in `[0, 1]` the value neither overshoots nor moves away. |
| Smoothing.ApproachNGap | floating-motion.js:162-165 | After `n` frames towards a fixed target, the gap is `(1 - k)^n` times the initial gap. |
| Smoothing.SettleWithin | floating-motion.js:162-165 | Once `(1 - k)^n <= 1%`, `n` frames bring any value within 1% of its target. |
| Smoothing.ElementSettlesWithin56Frames | floating-motion.js:162-165 | With the element fraction 0.08, every channel is within 1% of a fixed target after 56 frames. |
| Smoothing.PointerSettlesWithin44Frames | floating-motion.js:190-191 | With the pointer fraction 0.1, the pointer is within 1% of a fixed target after 44 frames. |
| SmoothScroll.ScrollEase | floating-motion.js:258-260 | The inline easing: `4p^3` before the middle, `1 - (-2p + 2)^3 / 2` from it on. `EaseEndpoints`, `EaseSymmetric`, `EaseMonotone` and `EaseRange` state what it guarantees. |
| SmoothScroll.EaseInOutCubic | script.js:725-727 | `Utils.easeInOutCubic`, with the other factorisation of the second half. `SameCurve` proves it equals `ScrollEase` on every real. |
| SmoothScroll.SameCurve | script.js:725-727 | `Utils.easeInOutCubic` and the inline `Math.pow` easing of the link scroll are the same function on every real. |
| SmoothScroll.EaseEndpoints | floating-motion.js:258-260 | The easing is 0 at 0, 1/2 at 1/2 and 1 at 1. |
| SmoothScroll.EaseSymmetric | floating-motion.js:258-260 | The curve is point-symmetric about its middle: `ease(1 - p) = 1 - ease(p)`. |
| SmoothScroll.EaseMonotone | floating-motion.js:258-260 | The easing never decreases. |
| SmoothScroll.EaseRange | floating-motion.js:258-260 | On `[0, 1]` the easing stays in `[0, 1]`. |
| SmoothScroll.Percent | floating-motion.js:255 | The clamped progress is at most 1, equals 1 exactly once the duration has elapsed, and is non-negative for non-negative progress. |
| SmoothScroll.BeginScroll | floating-motion.js:246-250 | The scroll aims 80 px above the target's top, with no start time yet. |
| SmoothScroll.Step | floating-motion.js:252-267 | The first frame sets the start time, and later frames keep it. Another frame is requested exactly while the duration has not elapsed. |
| SmoothScroll.FirstFrameStaysPut | floating-motion.js:253-262 | The first frame scrolls to the starting position. |
| SmoothScroll.LastFrameLands | floating-motion.js:262-266 | The frame that stops the animation lands exactly on the target position. |
| SmoothScroll.FramesStayBetween | floating-motion.js:252-262 | No frame scrolls outside the segment from the start to the target. |
| SmoothScroll.FramesAdvance | floating-motion.js:252-262 | A later timestamp never scrolls back towards the start. |

## Left out

- **Page plumbing.** DOM queries, class and style writes and listener wiring are replaced by inputs and results. So are the loading screen, particles, AOS, stats counter, skill-bar stagger, notifications, success modal, mobile menu, cursor follower, parallax, lazy images, keyboard-focus classes, the service worker and error logging. None of them belongs to the rule sets modelled here.
- SkillFilter.ApplyFilter: does not model that the 300 ms `display = 'none'` timer of an earlier click (script.js:365-369) is never cancelled. A later click within 300 ms that selects the card sets `display = 'block'`, then the stale timer hides it again, so a card can stay hidden while its button is active. `shownCards` records the branch a click takes, not what the page finally shows.
- **Timers and the frame scheduler.** `setTimeout`, `setInterval` and `requestAnimationFrame` are not modelled. Each callback is modelled as one step, and delays are results (`Typing.NextDelay`). Debounce and throttle are scheduling only.
- **Scroll progress bar.** Its width divides by the document height, which may be 0. It needs IEEE infinities, so it is left out.
- **IEEE arithmetic.** All arithmetic is exact over the reals: no rounding, infinities or NaN.
- **Library results as inputs.** `Math.sqrt`, `Math.atan2`, `Math.cos` and `Math.sin` are supplied by the caller. The frame gets, per element, a `Polar` value constrained by `IsPolarOf` and a function `sin`. `Math.random()` values arrive as `Draws`.
- FloatingMotion.MouseMove: requires a non-zero element width. JavaScript would divide by zero there and produce a non-finite tilt.
- FloatingMotion.TiltBound: requires a non-zero element width, for the same reason.
- FloatingMotion.Push: requires a non-negative distance. That always holds for a `Math.sqrt` result.
- FloatingMotion.AnimateFrame: requires a rectangle and a polar offset for every registered element. The page reads one for every registered element each frame.
- SmoothScroll.Step: a NaN timestamp, which JavaScript would also treat as an unset start, is not a real number and is not modelled. The target element lookup by `href` is an input offset.
- **Intersection-observer highlighting.** `setupNavigationHighlight` (script.js:279-304) also clears and sets `active` on the same `.nav-link`s, on its own rule (threshold 0.3, 80 px root margins). It is not modelled, so `ScrollEffects.UpdateActiveNavigation` describes what the scroll handler writes, not which link the page finally shows as active when both handlers fire.
- **Native smooth scrolling.** `setupSmoothScrolling` (script.js:257-276) handles the same `a[href^="#"]` clicks with `window.scrollTo({behavior: 'smooth'})` to `getBoundingClientRect().top + pageYOffset - 80`, and competes with the modelled frame-by-frame scroll. It is not modelled.
- **A bare `href="#"`.** `document.querySelector('#')` throws a SyntaxError (script.js:261, floating-motion.js:243), so no scroll starts for such a link. `SmoothScroll.BeginScroll` takes the target's offset as an input and does not model the lookup or that exception.
- **Theme storage and media query.** The saved value, the `prefers-color-scheme` result (`None` when `matchMedia` is missing) and the body's `dark` class in the markup are parameters. Writing to `localStorage` is modelled as the returned stored value.
- **Form submission.** The simulated sending after a valid submit (button states, the delayed modal, form reset) is not modelled beyond the `Sending` outcome.

=== FILE: arith.dfy ===
/** Real multiplication under a name. Every product of the animation code
    whose factors are not plain variables is written `Mul(a, b)`, so a fact
    proved once about `Mul(a, b)` applies to every occurrence of that
    product, however its operands are spelled at the use site. */
module RealArith {

  function Mul(a: real, b: real): real {
    a * b
  }

  lemma MulComm(a: real, b: real)
    ensures Mul(a, b) == Mul(b, a)
  {
  }

  lemma MulAssoc(a: real, b: real, c: real)
    ensures Mul(Mul(a, b), c) == Mul(a, Mul(b, c))
  {
  }

  lemma MulAdd(a: real, b: real, c: real)
    ensures Mul(a, b + c) == Mul(a, b) + Mul(a, c)
  {
  }

  lemma MulRotate(a: real, b: real, c: real)
    ensures Mul(a, Mul(b, c)) == Mul(b, Mul(c, a))
  {
  }

  lemma MulOne(a: real, b: real)
    requires a == 1.0
    ensures Mul(a, b) == b && Mul(-a, b) == -b
  {
  }

  /** `g - g * k` is the fraction `1 - k` of `g`. */
  lemma MulOneMinus(g: real, k: real)
    ensures g - Mul(g, k) == Mul(1.0 - k, g)
  {
  }

  lemma MulZero(g: real, k: real)
    requires g == 0.0
    ensures Mul(g, k) == 0.0
  {
  }

  lemma MulNeg(a: real, b: real)
    ensures Mul(-a, b) == -Mul(a, b)
  {
  }

  /** Scaling by a fraction in `[0, 1]` keeps a value between zero and
      itself. */
  lemma MulWithin(g: real, k: real)
    requires g >= 0.0 && 0.0 <= k <= 1.0
    ensures 0.0 <= Mul(g, k) <= g
  {
  }

  lemma MulWithinNeg(g: real, k: real)
    requires g <= 0.0 && 0.0 <= k <= 1.0
    ensures g <= Mul(g, k) <= 0.0
  {
  }

  lemma MulPos(a: real, b: real)
    requires a > 0.0 && b > 0.0
    ensures Mul(a, b) > 0.0
  {
  }

  /** A fraction in `[0, 1)` of a positive value is below it. */
  lemma MulBelow(r: real, w: real)
    requires 0.0 <= r < 1.0 && w > 0.0
    ensures 0.0 <= Mul(r, w) < w
  {
  }

  lemma MulNonneg(a: real, b: real)
    requires a >= 0.0 && b >= 0.0
    ensures Mul(a, b) >= 0.0
  {
  }

  /** Scaling by a fixed factor preserves order when the factor is
      non-negative and reverses it when it is non-positive. */
  lemma MulMonotone(d: real, a: real, b: real)
    requires a <= b
    ensures d >= 0.0 ==> Mul(d, a) <= Mul(d, b)
    ensures d <= 0.0 ==> Mul(d, b) <= Mul(d, a)
  {
    if d >= 0.0 {
      assert d * b - d * a == d * (b - a);
    } else {
      assert d * a - d * b == -d * (b - a);
    }
  }

  lemma MulBound(x: real, y: real, a: real, b: real)
    requires 0.0 <= x <= a && 0.0 <= y <= b
    ensures Mul(x, y) <= Mul(a, b)
  {
    calc {
      x * y;
    <= a * y;
    <= a * b;
    }
  }

  /** `x` to the natural power `n`. */
  function Pow(x: real, n: nat): (r: real)
    ensures x >= 0.0 ==> r >= 0.0
  {
    if n == 0 then 1.0
    else
      var r := Mul(x, Pow(x, n - 1));
      if x >= 0.0 then MulNonneg(x, Pow(x, n - 1)); r else r
  }

  lemma {:induction false} PowAdd(x: real, a: nat, b: nat)
    ensures Pow(x, a + b) == Mul(Pow(x, a), Pow(x, b))
    decreases a
  {
    if a > 0 {
      PowAdd(x, a - 1, b);
      assert Pow(x, a + b) == Mul(x, Pow(x, a - 1 + b));
      MulAssoc(x, Pow(x, a - 1), Pow(x, b));
    } else {
      assert Mul(1.0, Pow(x, b)) == Pow(x, b);
    }
  }
}

=== FILE: contact_form.dfy ===
/** Contact-form validation (script.js `validateField`, `isValidEmail`
    and the validity aggregation of `handleFormSubmit`). A field is its raw
    value, its `type` attribute and its `name` attribute; the DOM side
    (border colours, the error `div`) is represented by the verdict's
    message. */
module ContactForm {
  import opened JsText

  datatype Field = Field(value: string, fieldType: string, name: string)

  /** `isValid` together with the `errorMessage` that `showFieldError`
      displays when it is false. */
  datatype Verdict = Valid | Invalid(message: string)

  const RequiredMessage: string := "This field is required"
  const EmailMessage: string := "Please enter a valid email address"
  const NameMessage: string := "Name must be at least 2 characters"
  const MessageMessage: string := "Message must be at least 10 characters"
  const FormMessage: string := "Please fix the errors above"

  const MinNameLength: nat := 2
  const MinMessageLength: nat := 10

  // ---------------------------------------------------------------------
  // The e-mail pattern /^[^\s@]+@[^\s@]+\.[^\s@]+$/
  // ---------------------------------------------------------------------

  /** A character the class `[^\s@]` matches. */
  predicate PlainChar(c: char) {
    !IsSpace(c) && c != '@'
  }

  predicate AllPlain(s: string) {
    forall i :: 0 <= i < |s| ==> PlainChar(s[i])
  }

  /** The language of the pattern: `s` splits at an `@` (index `p`) and a
      later `.` (index `q`) into three non-empty runs of `[^\s@]`. */
  ghost predicate MatchesEmailPattern(s: string) {
    exists p, q :: 0 < p && p + 1 < q && q + 1 < |s| && s[p] == '@' && s[q] == '.'
                   && AllPlain(s[..p]) && AllPlain(s[p + 1..q]) && AllPlain(s[q + 1..])
  }

  function Count(s: string, c: char): (n: nat)
    ensures n == 0 <==> (forall i :: 0 <= i < |s| ==> s[i] != c)
    ensures n <= |s|
  {
    if s == [] then 0 else (if s[0] == c then 1 else 0) + Count(s[1..], c)
  }

  /** Index of the first occurrence of `c` in `s`, or `|s|` if there is none. */
  function IndexOf(s: string, c: char): (i: nat)
    ensures i <= |s|
    ensures i < |s| ==> s[i] == c
    ensures forall j :: 0 <= j < i ==> s[j] != c
  {
    if s == [] then 0 else if s[0] == c then 0 else 1 + IndexOf(s[1..], c)
  }

  /** `d` has a `.` with at least one character on either side. */
  predicate HasInnerDot(d: string) {
    exists j :: 0 < j < |d| - 1 && d[j] == '.'
  }

  /** `isValidEmail`, stated the way a reader checks an address: no
      whitespace, exactly one `@`, something before it, and a dot after it
      with text on both sides of the dot. */
  predicate IsValidEmail(s: string) {
    var at := IndexOf(s, '@');
    && (forall i :: 0 <= i < |s| ==> !IsSpace(s[i]))
    && Count(s, '@') == 1
    && 0 < at
    && HasInnerDot(s[at + 1..])
  }

  lemma {:induction false} CountSplit(a: string, b: string, c: char)
    ensures Count(a + b, c) == Count(a, c) + Count(b, c)
    decreases |a|
  {
    if a == [] {
      assert a + b == b;
    } else {
      assert (a + b)[1..] == a[1..] + b;
      CountSplit(a[1..], b, c);
    }
  }

  /** The structural reading and the regular expression accept the same
      strings. */
  lemma EmailPatternIff(s: string)
    ensures IsValidEmail(s) <==> MatchesEmailPattern(s)
  {
    if IsValidEmail(s) {
      ValidEmailMatches(s);
    }
    if MatchesEmailPattern(s) {
      MatchedEmailIsValid(s);
    }
  }

  /** A string is its prefix before `p`, the character at `p`, and the rest. */
  lemma SplitAt(s: string, p: nat)
    requires p < |s|
    ensures s == s[..p] + [s[p]] + s[p + 1..]
  {
    assert s[p..] == [s[p]] + s[p + 1..];
    assert s == s[..p] + s[p..];
  }

  /** In a string with a single `@`, nothing after the first `@` is one. */
  lemma NoAtAfterFirst(s: string)
    requires Count(s, '@') == 1
    ensures IndexOf(s, '@') < |s|
    ensures Count(s[IndexOf(s, '@') + 1..], '@') == 0
  {
    var p := IndexOf(s, '@');
    var a, d := s[..p], s[p + 1..];
    SplitAt(s, p);
    assert forall i :: 0 <= i < |a| ==> a[i] != '@';
    CountSplit(a + [s[p]], d, '@');
    CountSplit(a, [s[p]], '@');
    assert Count([s[p]], '@') == 1;
  }

  /** With no whitespace anywhere and no `@` other than at `p`, the three
      runs around `p` and a later `q` are all plain. */
  lemma PlainRuns(s: string, p: nat, q: nat)
    requires p < q < |s|
    requires forall i :: 0 <= i < |s| ==> !IsSpace(s[i])
    requires forall i :: 0 <= i < |s| && i != p ==> s[i] != '@'
    ensures AllPlain(s[..p]) && AllPlain(s[p + 1..q]) && AllPlain(s[q + 1..])
  {
    var b, c := s[p + 1..q], s[q + 1..];
    forall k | 0 <= k < |b|
      ensures PlainChar(b[k])
    {
      assert b[k] == s[p + 1 + k];
    }
    forall k | 0 <= k < |c|
      ensures PlainChar(c[k])
    {
      assert c[k] == s[q + 1 + k];
    }
  }

  lemma ValidEmailMatches(s: string)
    requires IsValidEmail(s)
    ensures MatchesEmailPattern(s)
  {
    var p := IndexOf(s, '@');
    NoAtAfterFirst(s);
    var d := s[p + 1..];
    var j :| 0 < j < |d| - 1 && d[j] == '.';
    var q := p + 1 + j;
    assert s[q] == '.' by { assert s[q] == d[j]; }
    forall i | 0 <= i < |s| && i != p
      ensures s[i] != '@'
    {
      if i > p {
        assert s[i] == d[i - (p + 1)];
      }
    }
    PlainRuns(s, p, q);
  }

  lemma AllPlainConcat(a: string, b: string)
    requires AllPlain(a) && AllPlain(b)
    ensures AllPlain(a + b)
  {
    forall i | 0 <= i < |a + b|
      ensures PlainChar((a + b)[i])
    {
      if i >= |a| {
        assert (a + b)[i] == b[i - |a|];
      }
    }
  }

  /** A string of plain characters, an `@`, and more plain characters has
      no whitespace and exactly one `@`, found at the seam. */
  lemma PlainAtPlain(a: string, d: string)
    requires AllPlain(a) && AllPlain(d)
    ensures forall i :: 0 <= i < |a + ['@'] + d| ==> !IsSpace((a + ['@'] + d)[i])
    ensures Count(a + ['@'] + d, '@') == 1
    ensures IndexOf(a + ['@'] + d, '@') == |a|
  {
    var s := a + ['@'] + d;
    forall i | 0 <= i < |s|
      ensures !IsSpace(s[i])
    {
      if i < |a| {
        assert s[i] == a[i];
      } else if i > |a| {
        assert s[i] == d[i - |a| - 1];
      }
    }
    CountSplit(a + ['@'], d, '@');
    CountSplit(a, ['@'], '@');
    assert Count(a, '@') == 0;
    assert Count(d, '@') == 0;
    assert s[|a|] == '@';
    assert forall j :: 0 <= j < |a| ==> s[j] == a[j];
  }

  /** Three non-empty plain runs joined by `@` and `.` form a valid
      address. */
  lemma JoinedRunsValid(a: string, b: string, c: string)
    requires a != [] && b != [] && c != []
    requires AllPlain(a) && AllPlain(b) && AllPlain(c)
    ensures IsValidEmail(a + ['@'] + (b + ['.'] + c))
  {
    var d := b + ['.'] + c;
    AllPlainConcat(b, ['.']);
    AllPlainConcat(b + ['.'], c);
    PlainAtPlain(a, d);
    var s := a + ['@'] + d;
    assert s[|a| + 1..] == d;
    assert d[|b|] == '.';
  }

  /** Cutting a string around two positions and gluing the pieces back
      gives the string. */
  lemma SplitAround(s: string, p: nat, q: nat)
    requires p < q < |s|
    ensures s == s[..p] + [s[p]] + (s[p + 1..q] + [s[q]] + s[q + 1..])
  {
    assert s[q..] == [s[q]] + s[q + 1..];
    assert s[p + 1..] == s[p + 1..q] + s[q..];
    assert s[p..] == [s[p]] + s[p + 1..];
    assert s == s[..p] + s[p..];
  }

  lemma MatchedEmailIsValid(s: string)
    requires MatchesEmailPattern(s)
    ensures IsValidEmail(s)
  {
    var p, q :| 0 < p && p + 1 < q && q + 1 < |s| && s[p] == '@' && s[q] == '.'
                && AllPlain(s[..p]) && AllPlain(s[p + 1..q]) && AllPlain(s[q + 1..]);
    SplitAround(s, p, q);
    JoinedRunsValid(s[..p], s[p + 1..q], s[q + 1..]);
  }

  // ---------------------------------------------------------------------
  // Field and form validation
  // ---------------------------------------------------------------------

  /** Every check `validateField` makes, as one conjunction: present after
      trimming, an address if the type is `email`, at least 2 code units if
      named `name`, at least 10 if named `message`. */
  predicate Acceptable(f: Field) {
    var v := Trim(f.value);
    && v != []
    && (f.fieldType == "email" ==> IsValidEmail(v))
    && (f.name == "name" ==> Utf16Length(v) >= MinNameLength)
    && (f.name == "message" ==> Utf16Length(v) >= MinMessageLength)
  }

  /** `validateField`: the checks run in order (required, e-mail, name
      length, message length) and the first that fails names the error. */
  function ValidateField(f: Field): (r: Verdict)
    // the verdict is Valid exactly when every check passes
    ensures r.Valid? <==> Acceptable(f)
  {
    var v := Trim(f.value);
    if v == [] then Invalid(RequiredMessage)
    else if f.fieldType == "email" && !IsValidEmail(v) then Invalid(EmailMessage)
    else if f.name == "name" && Utf16Length(v) < MinNameLength then Invalid(NameMessage)
    else if f.name == "message" && Utf16Length(v) < MinMessageLength then Invalid(MessageMessage)
    else Valid
  }

  /** Which error a rejected field shows: a blank value is reported as
      missing whatever the field is, a rejected address as such whatever
      the field's name, and the message is always one of the four. */
  lemma ErrorPrecedence(f: Field)
    ensures Trim(f.value) == [] ==> ValidateField(f) == Invalid(RequiredMessage)
    ensures Trim(f.value) != [] && f.fieldType == "email" && !IsValidEmail(Trim(f.value))
            ==> ValidateField(f) == Invalid(EmailMessage)
    ensures ValidateField(f).Invalid? ==>
              ValidateField(f).message in {RequiredMessage, EmailMessage, NameMessage, MessageMessage}
    // past the first two checks, a short `name` is reported before anything else
    ensures Trim(f.value) != [] && (f.fieldType == "email" ==> IsValidEmail(Trim(f.value)))
            && ValidateField(f).Invalid? ==>
              ValidateField(f).message
              == (if f.name == "name" && Utf16Length(Trim(f.value)) < 2 then NameMessage else MessageMessage)
  {
  }

  /** A field named `name` whose type is not `email`, or whose address is
      well formed, passes exactly when its trimmed value has at least two
      code units; otherwise it is reported as missing or short. */
  lemma NameRule(f: Field)
    requires (f.fieldType == "email" ==> IsValidEmail(Trim(f.value))) && f.name == "name"
    ensures ValidateField(f).Valid? <==> Utf16Length(Trim(f.value)) >= 2
    ensures !ValidateField(f).Valid? ==>
              ValidateField(f) == Invalid(if Trim(f.value) == [] then RequiredMessage else NameMessage)
  {
  }

  /** A field named `message` whose type is not `email`, or whose address
      is well formed, passes exactly when its trimmed value has at least ten
      code units; otherwise it is reported as missing or short. */
  lemma MessageRule(f: Field)
    requires (f.fieldType == "email" ==> IsValidEmail(Trim(f.value))) && f.name == "message"
    ensures ValidateField(f).Valid? <==> Utf16Length(Trim(f.value)) >= 10
    ensures !ValidateField(f).Valid? ==>
              ValidateField(f) == Invalid(if Trim(f.value) == [] then RequiredMessage else MessageMessage)
  {
  }

  /** Any other field, if not an `email` field or holding a well-formed
      address, passes exactly when it is not blank. */
  lemma OtherFieldRule(f: Field)
    requires (f.fieldType == "email" ==> IsValidEmail(Trim(f.value))) && f.name != "name" && f.name != "message"
    ensures ValidateField(f).Valid? <==> Trim(f.value) != []
  {
  }

  /** Surrounding whitespace never changes a verdict. */
  lemma PaddingIrrelevant(f: Field, a: string, c: string)
    requires AllSpace(a) && AllSpace(c)
    ensures ValidateField(f.(value := a + Trim(f.value) + c)) == ValidateField(f)
  {
    TrimIsCore(f.value);
    TrimOfPadded(a, Trim(f.value), c);
  }

  /** The validity loop of `handleFormSubmit`: every field is validated
      (the loop does not stop at the first failure) and the form is valid
      exactly when all of them are. */
  method ValidateForm(fields: seq<Field>) returns (isFormValid: bool, verdicts: seq<Verdict>)
    ensures |verdicts| == |fields|
    ensures forall i :: 0 <= i < |fields| ==> verdicts[i] == ValidateField(fields[i])
    ensures isFormValid <==> forall i :: 0 <= i < |fields| ==> Acceptable(fields[i])
  {
    isFormValid := true;
    verdicts := [];
    for k := 0 to |fields|
      invariant |verdicts| == k
      invariant forall i :: 0 <= i < k ==> verdicts[i] == ValidateField(fields[i])
      invariant isFormValid <==> forall i :: 0 <= i < k ==> verdicts[i].Valid?
    {
      var v := ValidateField(fields[k]);
      verdicts := verdicts + [v];
      if !v.Valid? {
        isFormValid := false;
      }
    }
    AllValidIff(fields, verdicts);
  }

  lemma AllValidIff(fields: seq<Field>, verdicts: seq<Verdict>)
    requires |verdicts| == |fields|
    requires forall i :: 0 <= i < |fields| ==> verdicts[i] == ValidateField(fields[i])
    ensures (forall i :: 0 <= i < |fields| ==> verdicts[i].Valid?)
            <==> (forall i :: 0 <= i < |fields| ==> Acceptable(fields[i]))
  {
    forall i | 0 <= i < |fields|
      ensures verdicts[i].Valid? <==> Acceptable(fields[i])
    {
      assert verdicts[i] == ValidateField(fields[i]);
    }
  }

  /** What a submit does after validation: reject with the notification, or
      go on to the (simulated) sending. */
  datatype Submission = Rejected(notice: string, verdicts: seq<Verdict>) | Sending

  method HandleFormSubmit(fields: seq<Field>) returns (s: Submission)
    ensures s.Sending? <==> forall i :: 0 <= i < |fields| ==> Acceptable(fields[i])
    ensures s.Rejected? ==> s.notice == FormMessage && |s.verdicts| == |fields|
    // each field shows its own verdict, and at least one of them is an error
    ensures s.Rejected? ==> forall i :: 0 <= i < |fields| ==> s.verdicts[i] == ValidateField(fields[i])
    ensures s.Rejected? ==> exists i :: 0 <= i < |fields| && s.verdicts[i].Invalid?
  {
    var ok, verdicts := ValidateForm(fields);
    if ok {
      s := Sending;
    } else {
      s := Rejected(FormMessage, verdicts);
    }
  }
}

=== FILE: easing.dfy ===
/** The animated in-page scroll of floating-motion.js (`initSmoothTransitions`)
    and the cubic ease-in-out it uses, together with the separately written
    `Utils.easeInOutCubic` of script.js. Arithmetic is exact over the reals. */
module SmoothScroll {
  import opened Optional
  import opened RealArith

  /** Length of the animation, ms. */
  const Duration: real := 1000.0

  /** The target is scrolled to this many px below the fixed navbar. */
  const NavOffset: real := 80.0

  /** The inline easing of the scroll step, with `Math.pow(_, 3)`: `4p^3`
      up to the middle, `1 - (-2p + 2)^3 / 2` after it. */
  function ScrollEase(p: real): real {
    if p < 0.5 then 4.0 * Pow(p, 3) else 1.0 - Pow(-2.0 * p + 2.0, 3) / 2.0
  }

  /** `Utils.easeInOutCubic`, written with repeated multiplication and the
      other factorisation of the second half. */
  function EaseInOutCubic(t: real): real {
    if t < 0.5 then 4.0 * t * t * t else (t - 1.0) * (2.0 * t - 2.0) * (2.0 * t - 2.0) + 1.0
  }

  /** The cube as a plain product, for the algebra below. */
  function Cube(x: real): real {
    x * x * x
  }

  lemma PowIsCube(x: real)
    ensures Pow(x, 3) == Cube(x)
  {
    assert Pow(x, 1) == x;
    assert Pow(x, 2) == x * x;
  }

  lemma CubeNegDouble(y: real)
    ensures Cube(-2.0 * y) == -8.0 * Cube(y)
  {
  }

  lemma CubeDouble(y: real)
    ensures Cube(2.0 * y) == 8.0 * Cube(y)
  {
  }

  lemma SecondHalfFactor(t: real)
    ensures (t - 1.0) * (2.0 * t - 2.0) * (2.0 * t - 2.0) == 4.0 * Cube(t - 1.0)
  {
  }

  lemma ScrollEaseFirstHalf(p: real)
    requires p < 0.5
    ensures ScrollEase(p) == 4.0 * Cube(p)
  {
    PowIsCube(p);
  }

  /** After the middle the inline easing is `4(p - 1)^3 + 1`. */
  lemma ScrollEaseSecondHalf(p: real)
    requires p >= 0.5
    ensures ScrollEase(p) == 4.0 * Cube(p - 1.0) + 1.0
  {
    PowIsCube(-2.0 * p + 2.0);
    assert -2.0 * p + 2.0 == -2.0 * (p - 1.0);
    CubeNegDouble(p - 1.0);
  }

  /** The two easings are the same curve on every real. */
  lemma SameCurve(p: real)
    ensures ScrollEase(p) == EaseInOutCubic(p)
  {
    if p < 0.5 {
      ScrollEaseFirstHalf(p);
      assert 4.0 * p * p * p == 4.0 * Cube(p);
    } else {
      ScrollEaseSecondHalf(p);
      SecondHalfFactor(p);
    }
  }

  lemma CubeMonoNonneg(a: real, b: real)
    requires 0.0 <= a <= b
    ensures Cube(a) <= Cube(b)
  {
    calc {
      a * a;
    <= a * b;
    <= b * b;
    }
    calc {
      a * a * a;
    <= b * b * a;
    <= b * b * b;
    }
  }

  lemma CubeNeg(x: real)
    ensures Cube(-x) == -Cube(x)
  {
  }

  lemma CubeSign(x: real)
    ensures x >= 0.0 ==> Cube(x) >= 0.0
    ensures x <= 0.0 ==> Cube(x) <= 0.0
  {
    if x >= 0.0 {
      CubeMonoNonneg(0.0, x);
    } else {
      CubeMonoNonneg(0.0, -x);
      CubeNeg(x);
    }
  }

  /** Cubing is monotone on all reals. */
  lemma CubeMono(a: real, b: real)
    requires a <= b
    ensures Cube(a) <= Cube(b)
  {
    if 0.0 <= a {
      CubeMonoNonneg(a, b);
    } else if b <= 0.0 {
      CubeMonoNonneg(-b, -a);
      CubeNeg(a);
      CubeNeg(b);
    } else {
      CubeSign(a);
      CubeSign(b);
    }
  }

  lemma CubeOfZero(z: real)
    requires z == 0.0
    ensures Pow(z, 3) == 0.0
  {
    MulZero(z, Pow(z, 2));
  }

  lemma CubeOfOne(o: real)
    requires o == 1.0
    ensures Pow(o, 3) == 1.0
  {
    MulOne(o, Pow(o, 0));
    MulOne(o, Pow(o, 1));
    MulOne(o, Pow(o, 2));
  }

  lemma EaseAtZero(p: real)
    requires p == 0.0
    ensures ScrollEase(p) == 0.0
  {
    CubeOfZero(p);
  }

  lemma EaseAtHalf(p: real)
    requires p == 0.5
    ensures ScrollEase(p) == 0.5
  {
    CubeOfOne(-2.0 * p + 2.0);
  }

  lemma EaseAtOne(p: real)
    requires p == 1.0
    ensures ScrollEase(p) == 1.0
  {
    CubeOfZero(-2.0 * p + 2.0);
  }

  /** The easing starts at 0, passes 1/2 in the middle and ends at 1. */
  lemma EaseEndpoints()
    ensures ScrollEase(0.0) == 0.0 && ScrollEase(0.5) == 0.5 && ScrollEase(1.0) == 1.0
  {
    EaseAtZero(0.0);
    EaseAtHalf(0.5);
    EaseAtOne(1.0);
  }

  /** The curve is point-symmetric about the middle. */
  lemma EaseSymmetric(p: real)
    ensures ScrollEase(1.0 - p) == 1.0 - ScrollEase(p)
  {
    if p < 0.5 {
      // 1 - p is past the middle: 1 - (2p)^3 / 2
      ScrollEaseFirstHalf(p);
      PowIsCube(-2.0 * (1.0 - p) + 2.0);
      assert -2.0 * (1.0 - p) + 2.0 == 2.0 * p;
      CubeDouble(p);
    } else if p > 0.5 {
      // 1 - p is before the middle, and -2p + 2 = 2(1 - p)
      ScrollEaseFirstHalf(1.0 - p);
      PowIsCube(-2.0 * p + 2.0);
      assert -2.0 * p + 2.0 == 2.0 * (1.0 - p);
      CubeDouble(1.0 - p);
    } else {
      EaseEndpoints();
    }
  }

  /** The easing never moves backwards. */
  lemma EaseMonotone(p: real, q: real)
    requires p <= q
    ensures ScrollEase(p) <= ScrollEase(q)
  {
    if q < 0.5 {
      ScrollEaseFirstHalf(p);
      ScrollEaseFirstHalf(q);
      CubeMono(p, q);
    } else if p >= 0.5 {
      ScrollEaseSecondHalf(p);
      ScrollEaseSecondHalf(q);
      CubeMono(p - 1.0, q - 1.0);
    } else {
      // p before the middle, q after it: both sides of 1/2
      ScrollEaseFirstHalf(p);
      CubeMono(p, 0.5);
      ScrollEaseSecondHalf(q);
      CubeMono(-0.5, q - 1.0);
      assert Cube(0.5) == 0.125 && Cube(-0.5) == -0.125;
    }
  }

  /** On `[0, 1]` the easing stays in `[0, 1]`. */
  lemma EaseRange(p: real)
    requires 0.0 <= p <= 1.0
    ensures 0.0 <= ScrollEase(p) <= 1.0
  {
    EaseEndpoints();
    EaseMonotone(0.0, p);
    EaseMonotone(p, 1.0);
  }

  /** `Math.min(progress / duration, 1)`. */
  function Percent(progress: real): (r: real)
    ensures r <= 1.0
    ensures progress >= Duration <==> r == 1.0
    ensures 0.0 <= progress ==> 0.0 <= r
  {
    if progress / Duration < 1.0 then progress / Duration else 1.0
  }

  /** One click on an in-page link: the animation's start time (unset
      until the first frame), where it starts and how far it goes. */
  datatype ScrollAnimation = ScrollAnimation(start: Option<real>, startPosition: real, distance: real)

  /** The click handler: aim 80 px above the target's top. */
  function BeginScroll(offsetTop: real, pageYOffset: real): (a: ScrollAnimation)
    ensures a.start.None?
    ensures a.startPosition + a.distance == offsetTop - NavOffset
  {
    ScrollAnimation(None, pageYOffset, offsetTop - NavOffset - pageYOffset)
  }

  /** `!start` in JavaScript: unset, or the number 0. */
  predicate StartFalsy(start: Option<real>) {
    start.None? || start.value == 0.0
  }

  /** What one `step` does: the updated animation, the position passed to
      `window.scrollTo`, and whether another frame is requested. */
  datatype Frame = Frame(animation: ScrollAnimation, scrollY: real, more: bool)

  function Step(a: ScrollAnimation, timestamp: real): (f: Frame)
    // the start time is set on the first frame and kept afterwards
    ensures f.animation.start == (if StartFalsy(a.start) then Some(timestamp) else a.start)
    ensures f.animation.startPosition == a.startPosition && f.animation.distance == a.distance
    // another frame is requested exactly while the duration has not elapsed
    ensures f.more <==> timestamp - f.animation.start.value < Duration
  {
    var start := if StartFalsy(a.start) then timestamp else a.start.value;
    var progress := timestamp - start;
    var ease := ScrollEase(Percent(progress));
    Frame(a.(start := Some(start)), a.startPosition + Mul(a.distance, ease), progress < Duration)
  }

  /** The first frame stays where the page was. */
  lemma FirstFrameStaysPut(a: ScrollAnimation, timestamp: real)
    requires a.start.None?
    ensures Step(a, timestamp).scrollY == a.startPosition
  {
    EaseEndpoints();
    MulZero(0.0, a.distance);
    MulComm(a.distance, 0.0);
  }

  /** The frame that stops the animation lands exactly on the target. */
  lemma LastFrameLands(a: ScrollAnimation, timestamp: real)
    ensures !Step(a, timestamp).more ==>
              Step(a, timestamp).scrollY == a.startPosition + a.distance
  {
    EaseEndpoints();
    MulComm(a.distance, 1.0);
    MulOne(1.0, a.distance);
  }

  /** No frame scrolls outside the segment between the start position and
      the target, as long as time does not run backwards past the start. */
  lemma FramesStayBetween(a: ScrollAnimation, timestamp: real)
    requires a.start.Some? ==> a.start.value <= timestamp
    ensures var y := Step(a, timestamp).scrollY;
            && (a.distance >= 0.0 ==> a.startPosition <= y <= a.startPosition + a.distance)
            && (a.distance <= 0.0 ==> a.startPosition + a.distance <= y <= a.startPosition)
  {
    var start := if StartFalsy(a.start) then timestamp else a.start.value;
    var e := ScrollEase(Percent(timestamp - start));
    EaseRange(Percent(timestamp - start));
    if a.distance >= 0.0 {
      MulWithin(a.distance, e);
    }
    if a.distance <= 0.0 {
      MulWithinNeg(a.distance, e);
    }
  }

  /** Frame by frame the position moves towards the target: a later
      timestamp never scrolls back. */
  lemma FramesAdvance(a: ScrollAnimation, t0: real, t1: real)
    requires a.start.Some? && !StartFalsy(a.start) && t0 <= t1
    ensures a.distance >= 0.0 ==> Step(a, t0).scrollY <= Step(a, t1).scrollY
    ensures a.distance <= 0.0 ==> Step(a, t1).scrollY <= Step(a, t0).scrollY
  {
    var s := a.start.value;
    var e0, e1 := ScrollEase(Percent(t0 - s)), ScrollEase(Percent(t1 - s));
    assert Percent(t0 - s) <= Percent(t1 - s);
    EaseMonotone(Percent(t0 - s), Percent(t1 - s));
    MulMonotone(a.distance, e0, e1);
  }
}

=== FILE: floating_motion.dfy ===
/** The floating-motion engine of floating-motion.js: a registry of
    per-element motion state, the hover listeners that steer tilt and
    scale, the smoothed pointer, and the per-frame update that pushes
    elements away from a nearby pointer, bobs them up and down and eases
    every channel towards its target.

    Bounding rectangles, pointer coordinates, timestamps and the values of
    `Math.random()` are inputs. So are the results of `Math.sqrt`,
    `Math.atan2`, `Math.cos` and `Math.sin`: a frame receives, per element,
    the pointer's offset in polar form (`Polar`, constrained by
    `IsPolarOf`) and a function `sin` for the bobbing term. */
module FloatingMotion {
  import opened RealArith
  import opened MotionConfig
  import opened Smoothing

  /** `Math.PI`: the double nearest to pi, written out exactly. */
  const Pi: real := 3.141592653589793115997963468544185161590576171875

  /** Hover targets. */
  const HoverScale: real := 1.05
  const RestScale: real := 1.0

  /** The push away from a close pointer is this many px at full strength. */
  const PushMagnitude: real := 20.0

  /** Margin by which the visibility band extends past the viewport, px. */
  const BandMargin: real := 100.0

  /** The pointer's own smoothing fraction. */
  const PointerFraction: real := 0.1

  /** A `getBoundingClientRect()` result (bottom is `top + height`). */
  datatype Rect = Rect(left: real, top: real, width: real, height: real) {
    function Bottom(): real { top + height }
    function CenterX(): real { left + width / 2.0 }
    function CenterY(): real { top + height / 2.0 }
  }

  /** The four `Math.random()` values drawn when an element is registered,
      in call order. */
  datatype Draws = Draws(phase: real, speed: real, amplitude: real, follow: real)

  predicate UnitDraws(d: Draws) {
    && 0.0 <= d.phase < 1.0 && 0.0 <= d.speed < 1.0
    && 0.0 <= d.amplitude < 1.0 && 0.0 <= d.follow < 1.0
  }

  /** The record `animatedElements` keeps per element. */
  datatype MotionState = MotionState(
    x: real, y: real, rotation: real, scale: real,
    targetX: real, targetY: real, targetRotation: real, targetScale: real,
    floatOffset: real, floatSpeed: real, floatAmplitude: real, followStrength: real,
    originalRect: Rect,
    isHovered: bool)

  /** Current values equal their targets: translation and tilt are zero and
      the scale is one. */
  predicate AtRest(m: MotionState) {
    && m.x == 0.0 && m.y == 0.0 && m.rotation == 0.0 && m.scale == RestScale
    && m.targetX == m.x && m.targetY == m.y
    && m.targetRotation == m.rotation && m.targetScale == m.scale
  }

  /** `a` and `b` agree on everything the hover listeners do not touch. */
  predicate SameExceptHover(a: MotionState, b: MotionState) {
    && a.x == b.x && a.y == b.y && a.rotation == b.rotation && a.scale == b.scale
    && a.targetX == b.targetX && a.targetY == b.targetY
    && a.floatOffset == b.floatOffset && a.floatSpeed == b.floatSpeed
    && a.floatAmplitude == b.floatAmplitude && a.followStrength == b.followStrength
    && a.originalRect == b.originalRect
  }

  // ---------------------------------------------------------------------
  // Registration
  // ---------------------------------------------------------------------

  /** The record created for a newly found element. */
  function NewMotionState(c: Config, rect: Rect, d: Draws): (m: MotionState)
    ensures AtRest(m) && !m.isHovered && m.originalRect == rect
  {
    MotionState(0.0, 0.0, 0.0, 1.0, 0.0, 0.0, 0.0, 1.0,
                Mul(Mul(d.phase, Pi), 2.0),
                Mul(c.floatSpeed, 0.8 + Mul(d.speed, 0.4)),
                Mul(c.floatAmplitude, 0.5 + Mul(d.amplitude, 0.5)),
                Mul(c.mouseFollowStrength, 0.5 + Mul(d.follow, 0.5)),
                rect, false)
  }

  /** `base * (lo + r * width)` with `r` in `[0, 1)` lies in
      `[lo * base, lo * base + width * base)`. */
  lemma ScaledRange(base: real, r: real, lo: real, width: real)
    requires base > 0.0 && 0.0 <= r < 1.0 && width > 0.0
    ensures Mul(lo, base) <= Mul(base, lo + Mul(r, width)) < Mul(lo, base) + Mul(width, base)
  {
    MulAdd(base, lo, Mul(r, width));
    MulComm(base, lo);
    MulRotate(base, r, width);
    MulPos(width, base);
    MulBelow(r, Mul(width, base));
  }

  /** With `Math.random()` in `[0, 1)` and a sane configuration, the
      per-element parameters fall in their documented ranges. */
  lemma RegistrationRanges(c: Config, rect: Rect, d: Draws)
    requires Sane(c) && UnitDraws(d)
    ensures var m := NewMotionState(c, rect, d);
            && 0.0 <= m.floatOffset < 2.0 * Pi
            && 0.8 * c.floatSpeed <= m.floatSpeed < 1.2 * c.floatSpeed
            && 0.5 * c.floatAmplitude <= m.floatAmplitude < 1.0 * c.floatAmplitude
            && 0.5 * c.mouseFollowStrength <= m.followStrength < 1.0 * c.mouseFollowStrength
  {
    ScaledRange(c.floatSpeed, d.speed, 0.8, 0.4);
    ScaledRange(c.floatAmplitude, d.amplitude, 0.5, 0.5);
    ScaledRange(c.mouseFollowStrength, d.follow, 0.5, 0.5);
    ScaledRange(Pi, d.phase, 0.0, 1.0);
    assert Mul(Pi, 0.0 + Mul(d.phase, 1.0)) == Mul(d.phase, Pi);
  }

  /** An opaque handle for a DOM element. */
  type ElementId = nat

  /** An element matched by one of the selectors, in discovery order, with
      its rectangle and the random values its registration would draw. */
  datatype Candidate = Candidate(id: ElementId, rect: Rect, draws: Draws)

  /** `animatedElements`, plus the multiset of elements that have had the
      hover listeners attached (once per attachment). */
  datatype Registry = Registry(states: map<ElementId, MotionState>, listeners: multiset<ElementId>)

  const EmptyRegistry: Registry := Registry(map[], multiset{})

  /** Every registered element has exactly one set of hover listeners and no
      other element has any. */
  ghost predicate ListenersOnce(g: Registry) {
    forall e :: g.listeners[e] == (if e in g.states then 1 else 0)
  }

  lemma EmptyRegistryListenersOnce()
    ensures ListenersOnce(EmptyRegistry)
  {
  }

  function CandidateIds(cands: seq<Candidate>): set<ElementId> {
    set i | 0 <= i < |cands| :: cands[i].id
  }

  /** Insert-if-absent: an element already present keeps its state and
      gets no second set of listeners. */
  function Register(g: Registry, c: Config, cand: Candidate): (r: Registry)
    ensures r.states.Keys == g.states.Keys + {cand.id}
    ensures forall e :: e in g.states ==> r.states[e] == g.states[e]
    ensures cand.id !in g.states ==> r.states[cand.id] == NewMotionState(c, cand.rect, cand.draws)
    ensures ListenersOnce(g) ==> ListenersOnce(r)
  {
    if cand.id in g.states then g
    else Registry(g.states[cand.id := NewMotionState(c, cand.rect, cand.draws)],
                  g.listeners + multiset{cand.id})
  }

  lemma CandidateIdsCons(cands: seq<Candidate>)
    requires cands != []
    ensures CandidateIds(cands) == {cands[0].id} + CandidateIds(cands[1..])
  {
    forall e | e in CandidateIds(cands)
      ensures e in {cands[0].id} + CandidateIds(cands[1..])
    {
      var i :| 0 <= i < |cands| && cands[i].id == e;
      if i > 0 {
        assert cands[1..][i - 1].id == e;
      }
    }
  }

  /** The entry of `r` for `e` is the record built from the candidate at
      index `i`, the first candidate carrying `e`. */
  predicate BuiltFromFirst(r: Registry, c: Config, cands: seq<Candidate>, e: ElementId, i: int)
    requires e in r.states
  {
    && 0 <= i < |cands| && cands[i].id == e
    && (forall j :: 0 <= j < i ==> cands[j].id != e)
    && r.states[e] == NewMotionState(c, cands[i].rect, cands[i].draws)
  }

  /** Every entry of `r` that `g` lacks is built from the first candidate
      carrying its id. */
  ghost predicate NewEntriesFromCandidates(g: Registry, r: Registry, c: Config, cands: seq<Candidate>) {
    forall e :: e in r.states && e !in g.states ==> exists i :: BuiltFromFirst(r, c, cands, e, i)
  }

  /** The step of the induction: registering the first candidate and then
      the rest builds each new entry from its first candidate. */
  lemma NewEntriesStep(g: Registry, g': Registry, rest: Registry, c: Config, cands: seq<Candidate>)
    requires cands != [] && g' == Register(g, c, cands[0])
    requires g'.states.Keys <= rest.states.Keys
    requires forall e :: e in g'.states ==> rest.states[e] == g'.states[e]
    requires NewEntriesFromCandidates(g', rest, c, cands[1..])
    ensures NewEntriesFromCandidates(g, rest, c, cands)
  {
    forall e | e in rest.states && e !in g.states
      ensures exists i :: BuiltFromFirst(rest, c, cands, e, i)
    {
      if e == cands[0].id {
        assert BuiltFromFirst(rest, c, cands, e, 0);
      } else {
        var i :| BuiltFromFirst(rest, c, cands[1..], e, i);
        assert cands[i + 1] == cands[1..][i];
        forall j | 0 <= j < i + 1
          ensures cands[j].id != e
        {
          if j > 0 {
            assert cands[j] == cands[1..][j - 1];
          }
        }
        assert BuiltFromFirst(rest, c, cands, e, i + 1);
      }
    }
  }

  /** `initFloatingElements`: registers every candidate in order. The
      registry grows by exactly the new candidates, existing entries (and
      whatever motion they are in) are untouched, new entries start at
      rest, and the one-set-of-listeners invariant is kept. */
  function InitFloatingElements(g: Registry, c: Config, cands: seq<Candidate>): (r: Registry)
    ensures r.states.Keys == g.states.Keys + CandidateIds(cands)
    ensures forall e :: e in g.states ==> r.states[e] == g.states[e]
    ensures forall e :: e in r.states && e !in g.states ==> AtRest(r.states[e]) && !r.states[e].isHovered
    // a new entry is the record built from the first candidate carrying its id
    ensures NewEntriesFromCandidates(g, r, c, cands)
    ensures ListenersOnce(g) ==> ListenersOnce(r)
    decreases |cands|
  {
    if cands == [] then g
    else
      var g' := Register(g, c, cands[0]);
      var rest := InitFloatingElements(g', c, cands[1..]);
      CandidateIdsCons(cands);
      NewEntriesStep(g, g', rest, c, cands);
      rest
  }

  /** Every element discovery adds draws its random parameters from the
      ranges of `RegistrationRanges`, given draws of `Math.random()` in
      `[0, 1)` for every candidate. */
  lemma DiscoveredRanges(g: Registry, c: Config, cands: seq<Candidate>, e: ElementId)
    requires Sane(c) && forall i :: 0 <= i < |cands| ==> UnitDraws(cands[i].draws)
    requires e in InitFloatingElements(g, c, cands).states && e !in g.states
    ensures var m := InitFloatingElements(g, c, cands).states[e];
            && 0.0 <= m.floatOffset < 2.0 * Pi
            && 0.8 * c.floatSpeed <= m.floatSpeed < 1.2 * c.floatSpeed
            && 0.5 * c.floatAmplitude <= m.floatAmplitude < 1.0 * c.floatAmplitude
            && 0.5 * c.mouseFollowStrength <= m.followStrength < 1.0 * c.mouseFollowStrength
  {
    var r := InitFloatingElements(g, c, cands);
    var i :| BuiltFromFirst(r, c, cands, e, i);
    RegistrationRanges(c, cands[i].rect, cands[i].draws);
  }

  lemma {:induction false} InitAllPresent(g: Registry, c: Config, cands: seq<Candidate>)
    requires CandidateIds(cands) <= g.states.Keys
    ensures InitFloatingElements(g, c, cands) == g
    decreases |cands|
  {
    if cands != [] {
      assert cands[0].id in CandidateIds(cands);
      assert CandidateIds(cands[1..]) <= CandidateIds(cands) by {
        forall e | e in CandidateIds(cands[1..])
          ensures e in CandidateIds(cands)
        {
          var i :| 0 <= i < |cands[1..]| && cands[1..][i].id == e;
          assert cands[i + 1].id == e;
        }
      }
      InitAllPresent(g, c, cands[1..]);
    }
  }

  /** Re-running discovery (as the mutation observer does) over the same
      elements changes nothing. */
  lemma InitIdempotent(g: Registry, c: Config, cands: seq<Candidate>)
    ensures InitFloatingElements(InitFloatingElements(g, c, cands), c, cands)
            == InitFloatingElements(g, c, cands)
  {
    InitAllPresent(InitFloatingElements(g, c, cands), c, cands);
  }

  /** `handleResize`: every entry's remembered rectangle is refreshed and
      nothing else changes. */
  function Resize(g: Registry, rects: map<ElementId, Rect>): (r: Registry)
    requires g.states.Keys <= rects.Keys
    ensures r.states.Keys == g.states.Keys && r.listeners == g.listeners
    ensures forall e :: e in r.states ==>
              r.states[e].originalRect == rects[e]
              && r.states[e] == g.states[e].(originalRect := r.states[e].originalRect)
  {
    Registry(map e | e in g.states :: g.states[e].(originalRect := rects[e]), g.listeners)
  }

  // ---------------------------------------------------------------------
  // Hover listeners
  // ---------------------------------------------------------------------

  /** `mouseenter`: hovered, and aiming for the enlarged scale. */
  function MouseEnter(m: MotionState): (r: MotionState)
    ensures r.isHovered && r.targetScale == HoverScale
    ensures r.targetRotation == m.targetRotation && SameExceptHover(m, r)
  {
    m.(isHovered := true, targetScale := HoverScale)
  }

  /** `mouseleave`: not hovered, aiming for rest scale and no tilt, whatever
      the tilt was. */
  function MouseLeave(m: MotionState): (r: MotionState)
    ensures !r.isHovered && r.targetScale == RestScale && r.targetRotation == 0.0
    ensures SameExceptHover(m, r)
  {
    m.(isHovered := false, targetScale := RestScale, targetRotation := 0.0)
  }

  /** `mousemove` over the element: while hovered, the target tilt is the
      pointer's horizontal offset from the centre as a fraction of the
      width, times the tilt strength; otherwise nothing happens. (The
      vertical fraction the listener also computes is never used.) */
  function MouseMove(m: MotionState, rect: Rect, clientX: real, tilt: real): (r: MotionState)
    requires rect.width != 0.0
    ensures !m.isHovered ==> r == m
    ensures SameExceptHover(m, r) && r.isHovered == m.isHovered && r.targetScale == m.targetScale
    // over a positive-width element, the tilt is at most half the strength either way,
    // and leans towards the side the pointer is on
    ensures m.isHovered && rect.width > 0.0 && tilt >= 0.0
            && rect.left <= clientX <= rect.left + rect.width
            ==> -tilt / 2.0 <= r.targetRotation <= tilt / 2.0
    ensures m.isHovered && rect.width > 0.0 && tilt > 0.0 ==>
              (clientX >= rect.CenterX() <==> r.targetRotation >= 0.0)
  {
    if m.isHovered then
      TiltBound(clientX - rect.CenterX(), rect.width, tilt);
      m.(targetRotation := Tilt(clientX - rect.CenterX(), rect.width, tilt))
    else m
  }

  /** `deltaX * tiltStrength`, where `deltaX` is the offset `off` from the
      centre as a fraction of the width `w`. */
  function Tilt(off: real, w: real, tilt: real): real
    requires w != 0.0
  {
    (off / w) * tilt
  }

  /** An offset within half the width either side of the centre is at most
      half the width as a fraction. */
  lemma FractionWithinHalf(off: real, w: real)
    requires w > 0.0 && -w / 2.0 <= off <= w / 2.0
    ensures -0.5 <= off / w <= 0.5
  {
    var q := off / w;
    assert Mul(w, q) == off;
    if q > 0.5 {
      MulPos(w, q - 0.5);
      MulAdd(w, q - 0.5, 0.5);
    } else if q < -0.5 {
      MulPos(w, -0.5 - q);
      MulAdd(w, -0.5 - q, q);
    }
  }

  lemma TiltBound(off: real, w: real, tilt: real)
    requires w != 0.0
    ensures w > 0.0 && tilt >= 0.0 && -w / 2.0 <= off <= w / 2.0 ==>
              -tilt / 2.0 <= Tilt(off, w, tilt) <= tilt / 2.0
    ensures w > 0.0 && tilt > 0.0 ==> (off >= 0.0 <==> Tilt(off, w, tilt) >= 0.0)
  {
    if w > 0.0 && tilt >= 0.0 {
      var q := off / w;
      assert q * w == off;
      if -w / 2.0 <= off <= w / 2.0 {
        FractionWithinHalf(off, w);
        assert -0.5 * tilt <= q * tilt <= 0.5 * tilt;
      }
      if off >= 0.0 {
        assert q >= 0.0;
      } else {
        assert q < 0.0;
        if tilt > 0.0 {
          assert q * tilt < 0.0;
        }
      }
    }
  }

  /** A run of `mousemove` events at the given horizontal positions. */
  function MouseMoves(m: MotionState, rect: Rect, xs: seq<real>, tilt: real): (r: MotionState)
    requires rect.width != 0.0
    decreases |xs|
  {
    if xs == [] then m else MouseMoves(MouseMove(m, rect, xs[0], tilt), rect, xs[1..], tilt)
  }

  lemma {:induction false} MouseMovesKeepHover(m: MotionState, rect: Rect, xs: seq<real>, tilt: real)
    requires rect.width != 0.0
    ensures SameExceptHover(m, MouseMoves(m, rect, xs, tilt))
    ensures MouseMoves(m, rect, xs, tilt).isHovered == m.isHovered
    ensures MouseMoves(m, rect, xs, tilt).targetScale == m.targetScale
    decreases |xs|
  {
    if xs != [] {
      MouseMovesKeepHover(MouseMove(m, rect, xs[0], tilt), rect, xs[1..], tilt);
    }
  }

  /** A whole hover episode (enter, any number of moves, leave) leaves the
      element exactly as a bare `mouseleave` would: no tilt or scale target
      survives it. */
  lemma HoverEpisodeLeavesNoTrace(m: MotionState, rect: Rect, xs: seq<real>, tilt: real)
    requires rect.width != 0.0
    ensures MouseLeave(MouseMoves(MouseEnter(m), rect, xs, tilt)) == MouseLeave(m)
  {
    MouseMovesKeepHover(MouseEnter(m), rect, xs, tilt);
  }

  // ---------------------------------------------------------------------
  // Pointer
  // ---------------------------------------------------------------------

  datatype Pointer = Pointer(x: real, y: real, targetX: real, targetY: real)

  /** At load the pointer starts at the viewport centre. */
  function InitialPointer(innerWidth: real, innerHeight: real): (p: Pointer)
    ensures p.x == p.targetX && p.y == p.targetY
    ensures 2.0 * p.x == innerWidth && 2.0 * p.y == innerHeight
  {
    Pointer(innerWidth / 2.0, innerHeight / 2.0, innerWidth / 2.0, innerHeight / 2.0)
  }

  /** `updateMousePosition`: only the target moves. */
  function PointerMove(p: Pointer, clientX: real, clientY: real): (r: Pointer)
    ensures r.x == p.x && r.y == p.y
    ensures r.targetX == clientX && r.targetY == clientY
  {
    p.(targetX := clientX, targetY := clientY)
  }

  /** The start of `animate`: the pointer closes a tenth of its gap. */
  function SmoothPointer(p: Pointer): (r: Pointer)
    ensures r.targetX == p.targetX && r.targetY == p.targetY
    ensures r.targetX - r.x == 0.9 * (p.targetX - p.x)
    ensures r.targetY - r.y == 0.9 * (p.targetY - p.y)
  {
    Pointer(Approach(p.x, p.targetX, PointerFraction), Approach(p.y, p.targetY, PointerFraction),
            p.targetX, p.targetY)
  }

  // ---------------------------------------------------------------------
  // One frame
  // ---------------------------------------------------------------------

  /** The pointer's offset from an element's centre in polar form, as the
      frame computes it: `distance` is `Math.sqrt(dx*dx + dy*dy)` and
      `cos`, `sin` are the cosine and sine of `Math.atan2(dy, dx)`. */
  datatype Polar = Polar(distance: real, cos: real, sin: real)

  /** What those library calls guarantee over the reals: a non-negative
      length and a unit direction that reproduce `(dx, dy)`, with angle 0
      when the offset is zero (`atan2(0, 0)` is 0). */
  predicate IsPolarOf(p: Polar, dx: real, dy: real) {
    && p.distance >= 0.0
    && Mul(p.cos, p.cos) + Mul(p.sin, p.sin) == 1.0
    && Mul(p.cos, p.distance) == dx && Mul(p.sin, p.distance) == dy
    && (p.distance == 0.0 ==> p.cos == 1.0 && p.sin == 0.0)
  }

  /** Falloff of the push: 1 with the pointer on the centre, approaching 0
      at the cap. */
  function Falloff(cap: real, d: real): (s: real)
    requires 0.0 <= d < cap
    ensures 0.0 < s <= 1.0
    ensures d == 0.0 ==> s == 1.0
  {
    (cap - d) / cap
  }

  /** Length of the push inside the cap: `Falloff * 20 * followStrength`. */
  function PushStrength(m: MotionState, c: Config, d: real): real
    requires 0.0 <= d < c.mouseFollowDistance
  {
    Mul(Mul(Falloff(c.mouseFollowDistance, d), PushMagnitude), m.followStrength)
  }

  /** The pointer term of the target offset: nothing at or beyond the cap;
      inside it, the direction away from the pointer, `-(cos, sin)`, scaled
      by the push strength. */
  function Push(m: MotionState, c: Config, p: Polar): (v: (real, real))
    requires p.distance >= 0.0
    ensures p.distance >= c.mouseFollowDistance ==> v == (0.0, 0.0)
  {
    if p.distance < c.mouseFollowDistance then
      var s := PushStrength(m, c, p.distance);
      (Mul(-p.cos, s), Mul(-p.sin, s))
    else (0.0, 0.0)
  }

  lemma ScaledUnit(u0: real, u1: real, s: real, d: real)
    requires Mul(u0, u0) + Mul(u1, u1) == 1.0
    ensures Mul(Mul(-u0, s), Mul(-u0, s)) + Mul(Mul(-u1, s), Mul(-u1, s)) == Mul(s, s)
    ensures Mul(Mul(-u0, s), Mul(u0, d)) + Mul(Mul(-u1, s), Mul(u1, d)) == -Mul(s, d)
  {
    assert (-u0 * s) * (-u0 * s) + (-u1 * s) * (-u1 * s) == (u0 * u0 + u1 * u1) * (s * s);
    assert (-u0 * s) * (u0 * d) + (-u1 * s) * (u1 * d) == -(u0 * u0 + u1 * u1) * (s * d);
  }

  /** Inside the cap the push has length `PushStrength` and points away
      from the pointer: its component along the centre-to-pointer offset
      is minus that length times the distance. With the pointer exactly on
      the centre it points left. */
  lemma PushGeometry(m: MotionState, c: Config, p: Polar, dx: real, dy: real)
    requires IsPolarOf(p, dx, dy) && p.distance < c.mouseFollowDistance
    ensures var v := Push(m, c, p);
            var s := PushStrength(m, c, p.distance);
            && Mul(v.0, v.0) + Mul(v.1, v.1) == Mul(s, s)
            && Mul(v.0, dx) + Mul(v.1, dy) == -Mul(s, p.distance)
            && (p.distance == 0.0 ==> v == (-s, 0.0))
  {
    var s := PushStrength(m, c, p.distance);
    var v := Push(m, c, p);
    assert v == (Mul(-p.cos, s), Mul(-p.sin, s));
    ScaledUnit(p.cos, p.sin, s, p.distance);
    if p.distance == 0.0 {
      MulOne(p.cos, s);
      MulZero(-p.sin, s);
    }
  }

  /** The bobbing phase at time `time`: the argument of `Math.sin`. */
  function Phase(m: MotionState, time: real): real {
    Mul(time, m.floatSpeed) + m.floatOffset
  }

  /** `calculateFloatingPosition` for one element, given `bob`, the sine of
      its phase: new targets from the pointer push plus the bobbing term,
      then every channel closes the fraction `transitionSpeed` of its gap.
      Nothing else changes. */
  function FloatingStep(m: MotionState, c: Config, p: Polar, bob: real): (r: MotionState)
    requires p.distance >= 0.0
    // the pointer term vanishes beyond the cap, leaving only the bobbing
    ensures p.distance >= c.mouseFollowDistance ==>
              r.targetX == 0.0 && r.targetY == Mul(bob, m.floatAmplitude)
    // the new target is the pointer push, with the bobbing term added vertically
    ensures r.targetX == Push(m, c, p).0 && r.targetY == Push(m, c, p).1 + Mul(bob, m.floatAmplitude)
    // each channel's gap to its target shrinks by the same factor
    ensures r.targetX - r.x == Mul(1.0 - c.transitionSpeed, r.targetX - m.x)
    ensures r.targetY - r.y == Mul(1.0 - c.transitionSpeed, r.targetY - m.y)
    ensures r.targetRotation - r.rotation == Mul(1.0 - c.transitionSpeed, m.targetRotation - m.rotation)
    ensures r.targetScale - r.scale == Mul(1.0 - c.transitionSpeed, m.targetScale - m.scale)
    // hover-driven targets, parameters and hover state are left alone
    ensures r.targetRotation == m.targetRotation && r.targetScale == m.targetScale
    ensures r.isHovered == m.isHovered && r.originalRect == m.originalRect
    ensures r.floatOffset == m.floatOffset && r.floatSpeed == m.floatSpeed
    ensures r.floatAmplitude == m.floatAmplitude && r.followStrength == m.followStrength
  {
    var push := Push(m, c, p);
    var tx := push.0;
    var ty := push.1 + Mul(bob, m.floatAmplitude);
    var k := c.transitionSpeed;
    m.(targetX := tx, targetY := ty,
       x := Approach(m.x, tx, k), y := Approach(m.y, ty, k),
       rotation := Approach(m.rotation, m.targetRotation, k),
       scale := Approach(m.scale, m.targetScale, k))
  }

  /** Inside the cap a frame moves the element's target away from the
      pointer: leaving out the bobbing term, the target offset has length
      `PushStrength` and its component along the centre-to-pointer offset is
      minus that length times the distance. */
  lemma StepPushesAway(m: MotionState, c: Config, p: Polar, dx: real, dy: real, bob: real)
    requires IsPolarOf(p, dx, dy) && p.distance < c.mouseFollowDistance
    ensures var r := FloatingStep(m, c, p, bob);
            var vx, vy := r.targetX, r.targetY - Mul(bob, m.floatAmplitude);
            var s := PushStrength(m, c, p.distance);
            && Mul(vx, vx) + Mul(vy, vy) == Mul(s, s)
            && Mul(vx, dx) + Mul(vy, dy) == -Mul(s, p.distance)
  {
    PushGeometry(m, c, p, dx, dy);
  }

  /** A channel already at its target stays there; and with the pointer
      beyond the cap, a resting element whose bobbing term is zero stays at
      rest. */
  lemma SettledStaysPut(m: MotionState, c: Config, p: Polar, bob: real)
    requires p.distance >= 0.0
    ensures var r := FloatingStep(m, c, p, bob);
            && (m.rotation == m.targetRotation ==> r.rotation == m.rotation)
            && (m.scale == m.targetScale ==> r.scale == m.scale)
            && ((AtRest(m) && p.distance >= c.mouseFollowDistance && bob == 0.0) ==> AtRest(r))
  {
    var r := FloatingStep(m, c, p, bob);
    if AtRest(m) && p.distance >= c.mouseFollowDistance && bob == 0.0 {
      MulZero(bob, m.floatAmplitude);
      assert r.x == Approach(m.x, r.targetX, c.transitionSpeed) == 0.0;
      assert r.y == Approach(m.y, r.targetY, c.transitionSpeed) == 0.0;
    }
  }

  /** The band in which elements are animated: the viewport extended by
      100 px above and below. */
  predicate Visible(rect: Rect, innerHeight: real) {
    rect.top < innerHeight + BandMargin && rect.Bottom() > -BandMargin
  }

  /** All of the engine's state. */
  datatype Engine = Engine(pointer: Pointer, registry: Registry, config: Config)

  /** The inputs one frame needs for every registered element: its live
      rectangle, and the polar form of the smoothed pointer's offset from
      that rectangle's centre. */
  ghost predicate FrameInputs(e: Engine, rects: map<ElementId, Rect>, polars: map<ElementId, Polar>) {
    var p := SmoothPointer(e.pointer);
    forall id :: id in e.registry.states ==>
      id in rects && id in polars
      && IsPolarOf(polars[id], p.x - rects[id].CenterX(), p.y - rects[id].CenterY())
  }

  /** `animate`: smooth the pointer, then update every registered element
      in the band and leave every other one exactly as it was. The
      registry's membership and listeners never change in a frame. */
  function AnimateFrame(e: Engine, innerHeight: real, time: real, sin: real -> real,
                        rects: map<ElementId, Rect>, polars: map<ElementId, Polar>): (r: Engine)
    requires FrameInputs(e, rects, polars)
    ensures r.config == e.config
    ensures r.pointer.targetX == e.pointer.targetX && r.pointer.targetY == e.pointer.targetY
    ensures r.pointer.targetX - r.pointer.x == 0.9 * (e.pointer.targetX - e.pointer.x)
    ensures r.pointer.targetY - r.pointer.y == 0.9 * (e.pointer.targetY - e.pointer.y)
    ensures r.registry.states.Keys == e.registry.states.Keys
    ensures r.registry.listeners == e.registry.listeners
    ensures forall id :: id in e.registry.states && !Visible(rects[id], innerHeight) ==>
              r.registry.states[id] == e.registry.states[id]
    ensures forall id :: id in e.registry.states && Visible(rects[id], innerHeight) ==>
              r.registry.states[id] == FloatingStep(e.registry.states[id], e.config, polars[id], sin(Phase(e.registry.states[id], time)))
  {
    var p := SmoothPointer(e.pointer);
    var states := map id | id in e.registry.states ::
      if Visible(rects[id], innerHeight)
      then FloatingStep(e.registry.states[id], e.config, polars[id], sin(Phase(e.registry.states[id], time)))
      else e.registry.states[id];
    Engine(p, Registry(states, e.registry.listeners), e.config)
  }

  /** An element wholly above the band, or wholly below it, is frozen for
      the frame. */
  lemma OffscreenFrozen(e: Engine, innerHeight: real, time: real, sin: real -> real,
                        rects: map<ElementId, Rect>, polars: map<ElementId, Polar>, id: ElementId)
    requires FrameInputs(e, rects, polars) && id in e.registry.states
    requires rects[id].Bottom() <= -BandMargin || rects[id].top >= innerHeight + BandMargin
    ensures AnimateFrame(e, innerHeight, time, sin, rects, polars).registry.states[id]
            == e.registry.states[id]
  {
  }
}

=== FILE: jstext.dfy ===
/** The pieces of JavaScript's string semantics the page relies on:
    the whitespace class shared by `String.prototype.trim` and the regular
    expression escape `\s`, `trim` itself, `substring` with its clamping of
    out-of-range indices, and `length` counted in UTF-16 code units. */
module JsText {

  /** True for the characters ECMAScript calls WhiteSpace or LineTerminator:
      exactly the characters `trim` removes and `\s` matches. */
  predicate IsSpace(c: char) {
    var n := c as int;
    || n == 0x09 || n == 0x0A || n == 0x0B || n == 0x0C || n == 0x0D
    || n == 0x20 || n == 0xA0 || n == 0x1680
    || (0x2000 <= n <= 0x200A)
    || n == 0x2028 || n == 0x2029 || n == 0x202F || n == 0x205F
    || n == 0x3000 || n == 0xFEFF
  }

  predicate AllSpace(s: string) {
    forall i :: 0 <= i < |s| ==> IsSpace(s[i])
  }

  /** Neither end of `s` is whitespace: the shape of every trimmed string. */
  predicate Trimmed(s: string) {
    s == [] || (!IsSpace(s[0]) && !IsSpace(s[|s| - 1]))
  }

  /** Removes leading whitespace. */
  function TrimStart(s: string): (r: string)
    ensures |r| <= |s|
  {
    if |s| > 0 && IsSpace(s[0]) then TrimStart(s[1..]) else s
  }

  /** What `TrimStart` removes is all whitespace, what it keeps is the rest
      of the string, and the kept part starts with a non-space. */
  lemma {:induction false} TrimStartShape(s: string)
    ensures var r := TrimStart(s);
            && r == s[|s| - |r|..]
            && AllSpace(s[..|s| - |r|])
            && (r == [] || !IsSpace(r[0]))
    decreases |s|
  {
    if |s| > 0 && IsSpace(s[0]) {
      var r := TrimStart(s[1..]);
      TrimStartShape(s[1..]);
      assert TrimStart(s) == r;
      assert s[1..][|s| - 1 - |r|..] == s[|s| - |r|..];
      assert s[..|s| - |r|] == [s[0]] + s[1..][..|s| - 1 - |r|];
    }
  }

  /** Removes trailing whitespace. */
  function TrimEnd(s: string): (r: string)
    ensures |r| <= |s|
  {
    if |s| > 0 && IsSpace(s[|s| - 1]) then TrimEnd(s[..|s| - 1]) else s
  }

  /** What `TrimEnd` removes is all whitespace, what it keeps is the start
      of the string, and the kept part ends with a non-space. */
  lemma {:induction false} TrimEndShape(s: string)
    ensures var r := TrimEnd(s);
            && r == s[..|r|]
            && AllSpace(s[|r|..])
            && (r == [] || !IsSpace(r[|r| - 1]))
    decreases |s|
  {
    if |s| > 0 && IsSpace(s[|s| - 1]) {
      var u := s[..|s| - 1];
      var r := TrimEnd(u);
      TrimEndShape(u);
      assert TrimEnd(s) == r;
      assert u[..|r|] == s[..|r|];
      assert s[|r|..] == u[|r|..] + [s[|s| - 1]];
    }
  }

  /** `String.prototype.trim`. */
  function Trim(s: string): (r: string)
    ensures |r| <= |s|
  {
    TrimEnd(TrimStart(s))
  }

  /** What `trim` returns is a contiguous piece of its argument, what lies
      before and after that piece is whitespace, and neither of its ends is. */
  lemma TrimIsCore(s: string)
    ensures var r := Trim(s);
            Trimmed(r) &&
            exists i :: 0 <= i && i + |r| <= |s| && r == s[i..i + |r|]
                        && AllSpace(s[..i]) && AllSpace(s[i + |r|..])
  {
    var t := TrimStart(s);
    var r := TrimEnd(t);
    TrimStartShape(s);
    TrimEndShape(t);
    var i := |s| - |t|;
    assert r == Trim(s);
    assert r == s[i..i + |r|] by {
      assert t == s[i..];
      assert r == t[..|r|];
    }
    assert AllSpace(s[i + |r|..]) by {
      assert s[i + |r|..] == t[|r|..];
    }
    assert Trimmed(r) by {
      if r != [] {
        assert r[0] == t[0];
      }
    }
  }

  lemma {:induction false} TrimStartOfPadded(a: string, b: string)
    requires AllSpace(a)
    requires b == [] || !IsSpace(b[0])
    ensures TrimStart(a + b) == b
    decreases |a|
  {
    if a == [] {
      assert a + b == b;
    } else {
      assert (a + b)[1..] == a[1..] + b;
      TrimStartOfPadded(a[1..], b);
    }
  }

  lemma {:induction false} TrimEndOfPadded(b: string, c: string)
    requires AllSpace(c)
    requires b == [] || !IsSpace(b[|b| - 1])
    ensures TrimEnd(b + c) == b
    decreases |c|
  {
    if c == [] {
      assert b + c == b;
    } else {
      assert (b + c)[..|b + c| - 1] == b + c[..|c| - 1];
      TrimEndOfPadded(b, c[..|c| - 1]);
    }
  }

  /** Trimming strips exactly the padding: a trimmed text surrounded by any
      whitespace comes back unchanged. */
  lemma TrimOfPadded(a: string, b: string, c: string)
    requires AllSpace(a) && AllSpace(c) && Trimmed(b)
    ensures Trim(a + b + c) == b
  {
    if b == [] {
      assert a + b + c == a + c;
      TrimStartOfPadded(a + c, []);
      assert a + c + [] == a + c;
    } else {
      assert a + b + c == a + (b + c);
      TrimStartOfPadded(a, b + c);
      TrimEndOfPadded(b, c);
    }
  }

  /** Trimming twice is trimming once. */
  lemma TrimIdempotent(s: string)
    ensures Trim(Trim(s)) == Trim(s)
  {
    var t := Trim(s);
    TrimIsCore(s);
    assert [] + t + [] == t;
    TrimOfPadded([], t, []);
  }

  /** Clamps a `substring` index into `[0, len]`, as the JavaScript method
      does with negative and too-large arguments. */
  function Clamp(k: int, len: nat): (r: nat)
    ensures r <= len
    ensures 0 <= k <= len ==> r == k
  {
    if k < 0 then 0 else if k > len then len else k
  }

  /** `s.substring(start, end)`: both indices are clamped into range and,
      if the first exceeds the second, they are swapped. */
  function Substring(s: string, start: int, end: int): (r: string)
    ensures start == 0 ==> r == s[..Clamp(end, |s|)]
    ensures start == 0 && end <= 0 ==> r == []
    ensures start == 0 && end >= |s| ==> r == s
  {
    var a, b := Clamp(start, |s|), Clamp(end, |s|);
    if a <= b then s[a..b] else s[b..a]
  }

  /** The number of UTF-16 code units of `s`, which is what a JavaScript
      string's `length` reports: characters beyond the Basic Multilingual
      Plane take a surrogate pair. */
  function Utf16Length(s: string): (n: nat)
    ensures |s| <= n <= 2 * |s|
    ensures n == 0 <==> s == []
    // one character is one code unit, or two beyond U+FFFF
    ensures |s| == 1 ==> n == (if s[0] as int >= 0x10000 then 2 else 1)
  {
    if s == [] then 0
    else (if s[0] as int >= 0x10000 then 2 else 1) + Utf16Length(s[1..])
  }

  /** Code units add up over concatenation, so with the one-character case
      this fixes the length of every string. */
  lemma {:induction false} Utf16Concat(a: string, b: string)
    ensures Utf16Length(a + b) == Utf16Length(a) + Utf16Length(b)
    decreases |a|
  {
    if a == [] {
      assert a + b == b;
    } else {
      assert (a + b)[0] == a[0];
      assert (a + b)[1..] == a[1..] + b;
      Utf16Concat(a[1..], b);
    }
  }
}

=== FILE: motion_config.dfy ===
/** The `CONFIG` object of floating-motion.js and its one-off reduction
    on narrow viewports. */
module MotionConfig {

  datatype Config = Config(
    mouseFollowStrength: real,  // scale of the push away from the pointer
    mouseFollowDistance: real,  // pointer distance beyond which there is no push
    floatAmplitude: real,       // height of the idle bobbing, px
    floatSpeed: real,           // angular speed of the bobbing, per ms
    tiltStrength: real,         // degrees of hover tilt across the element
    transitionSpeed: real       // fraction of the remaining gap closed per frame
  )

  const Default: Config := Config(0.03, 100.0, 20.0, 0.001, 5.0, 0.08)

  /** Viewports at most this wide get the reduced configuration. */
  const MobileMaxWidth: real := 768.0

  /** Every setting is positive and the per-frame fraction is below one. */
  predicate Sane(c: Config) {
    && c.mouseFollowStrength > 0.0 && c.mouseFollowDistance > 0.0
    && c.floatAmplitude > 0.0 && c.floatSpeed > 0.0 && c.tiltStrength > 0.0
    && 0.0 < c.transitionSpeed < 1.0
  }

  /** The startup check `window.innerWidth <= 768`: on a narrow viewport
      only the follow strength (to 0.01) and the float amplitude (to 10)
      change; every other setting stays as it was. */
  function ForViewport(c: Config, innerWidth: real): (r: Config)
    ensures r.mouseFollowDistance == c.mouseFollowDistance
    ensures r.floatSpeed == c.floatSpeed
    ensures r.tiltStrength == c.tiltStrength
    ensures r.transitionSpeed == c.transitionSpeed
    ensures innerWidth > MobileMaxWidth ==> r == c
    ensures innerWidth <= MobileMaxWidth ==> r.mouseFollowStrength == 0.01 && r.floatAmplitude == 10.0
  {
    if innerWidth <= MobileMaxWidth then c.(mouseFollowStrength := 0.01, floatAmplitude := 10.0) else c
  }

  /** Whatever the viewport, the configuration in force is sane, and on a
      narrow one it moves things less than the default does. */
  lemma EffectiveConfigSane(innerWidth: real)
    ensures Sane(ForViewport(Default, innerWidth))
    ensures ForViewport(Default, innerWidth).mouseFollowStrength <= Default.mouseFollowStrength
    ensures ForViewport(Default, innerWidth).floatAmplitude <= Default.floatAmplitude
  {
  }
}

=== FILE: optional.dfy ===
/** The absent-or-present value that JavaScript expresses with `null` or
    `undefined` (a missing storage key, a missing attribute). */
module Optional {

  datatype Option<+T> = None | Some(value: T)
}

=== FILE: scroll_effects.dfy ===
/** Scroll-driven page state of script.js: the navbar's `scrolled`
    class, the scroll-to-top button's `visible` class, and the choice of
    the active navigation link (`updateActiveNavigation`). Bounding
    rectangles and the scroll offset are inputs. */
module ScrollEffects {
  import opened Optional

  /** `CONFIG.SCROLL_THRESHOLD`. */
  const ScrollThreshold: real := 100.0

  /** The navbar carries `scrolled` iff the page is scrolled past the threshold. */
  predicate NavbarScrolled(scrollTop: real) {
    scrollTop > ScrollThreshold
  }

  /** The scroll-to-top button is `visible` iff scrolled past three thresholds. */
  predicate ScrollTopVisible(scrollTop: real) {
    scrollTop > ScrollThreshold * 3.0
  }

  /** Whenever the scroll-to-top button shows, the navbar is already in its
      scrolled style. */
  lemma ScrollTopImpliesScrolled(scrollTop: real)
    ensures ScrollTopVisible(scrollTop) ==> NavbarScrolled(scrollTop)
    ensures NavbarScrolled(scrollTop) <==> scrollTop > 100.0
    ensures ScrollTopVisible(scrollTop) <==> scrollTop > 300.0
  {
  }

  /** A `section[id]` with the top and bottom of its bounding rectangle. */
  datatype Section = Section(id: string, top: real, bottom: real)

  /** The reading line 100 px below the viewport top falls inside the section. */
  predicate OnReadingLine(s: Section) {
    s.top <= 100.0 && s.bottom >= 100.0
  }

  /** The index of the last section on the reading line, if any. */
  function LastOnLine(sections: seq<Section>): (k: Option<nat>)
    ensures k.Some? ==> k.value < |sections| && OnReadingLine(sections[k.value])
    ensures k.Some? ==> forall j :: k.value < j < |sections| ==> !OnReadingLine(sections[j])
    ensures k.None? <==> forall j :: 0 <= j < |sections| ==> !OnReadingLine(sections[j])
  {
    if sections == [] then None
    else if OnReadingLine(sections[|sections| - 1]) then Some(|sections| - 1)
    else LastOnLine(sections[..|sections| - 1])
  }

  /** The id of the current section: the last one on the reading line,
      or `''` when none is. */
  function CurrentSectionId(sections: seq<Section>): string {
    match LastOnLine(sections)
    case Some(k) => sections[k].id
    case None => ""
  }

  /** `updateActiveNavigation`: scans the sections in document order,
      remembering the last one on the reading line, then marks as active
      exactly the links whose `href` is `'#'` followed by that id (a link
      without an `href` never matches) and clears all others. */
  method UpdateActiveNavigation(sections: seq<Section>, hrefs: seq<Option<string>>)
    returns (current: string, active: seq<bool>)
    ensures current == CurrentSectionId(sections)
    ensures |active| == |hrefs|
    ensures forall i :: 0 <= i < |hrefs| ==> (active[i] <==> hrefs[i] == Some("#" + current))
    // with no section on the reading line, only an href of exactly "#" is marked
    ensures (forall j :: 0 <= j < |sections| ==> !OnReadingLine(sections[j])) ==>
              forall i :: 0 <= i < |hrefs| ==> (active[i] <==> hrefs[i] == Some("#"))
  {
    current := "";
    var k := 0;
    while k < |sections|
      invariant 0 <= k <= |sections|
      invariant current == CurrentSectionId(sections[..k])
    {
      assert sections[..k + 1][..k] == sections[..k];
      if OnReadingLine(sections[k]) {
        current := sections[k].id;
      }
      k := k + 1;
    }
    assert sections[..|sections|] == sections;
    active := [];
    var j := 0;
    while j < |hrefs|
      invariant 0 <= j <= |hrefs|
      invariant |active| == j
      invariant forall i :: 0 <= i < j ==> (active[i] <==> hrefs[i] == Some("#" + current))
    {
      active := active + [hrefs[j] == Some("#" + current)];
      j := j + 1;
    }
    if LastOnLine(sections).None? {
      assert "#" + current == "#";
    }
  }
}

=== FILE: skill_filter.dfy ===
/** The skill filter of script.js: clicking a filter button makes that
    button the only active one and selects exactly the skill cards its
    category matches. A `data-category` attribute may be missing on either
    side, in which case `dataset.category` is `undefined`. */
module SkillFilter {
  import opened Optional

  const AllCategory: string := "all"

  /** `category === 'all' || cardCategory === category`, where two missing
      values are equal (`undefined === undefined`). */
  predicate CardShown(category: Option<string>, cardCategory: Option<string>) {
    category == Some(AllCategory) || cardCategory == category
  }

  /** The outcome of one click. `shownCards[c]` records which branch the
      click takes for card `c`: `true` when it sets `display = 'block'`
      and fades the card in, `false` when it fades it out and queues
      `display = 'none'` for 300 ms later. A queued hide from an earlier
      click is not cancelled, so it is not what the page finally shows. */
  datatype FilterView = FilterView(activeButtons: seq<bool>, shownCards: seq<bool>)

  function ApplyFilter(buttonCategories: seq<Option<string>>, clicked: nat, cards: seq<Option<string>>)
    : (v: FilterView)
    requires clicked < |buttonCategories|
    ensures |v.activeButtons| == |buttonCategories| && |v.shownCards| == |cards|
    // exactly the clicked button is active
    ensures forall b :: 0 <= b < |buttonCategories| ==> (v.activeButtons[b] <==> b == clicked)
    // the "all" button selects every card; any other selects the cards of its own category
    ensures buttonCategories[clicked] == Some(AllCategory) ==>
              forall c :: 0 <= c < |cards| ==> v.shownCards[c]
    ensures buttonCategories[clicked] != Some(AllCategory) ==>
              forall c :: 0 <= c < |cards| ==> (v.shownCards[c] <==> cards[c] == buttonCategories[clicked])
  {
    var category := buttonCategories[clicked];
    FilterView(seq(|buttonCategories|, b => b == clicked),
               seq(|cards|, c requires 0 <= c < |cards| => CardShown(category, cards[c])))
  }
}

=== FILE: smoothing.dfy ===
/** The fixed-fraction smoothing both animation loops use: every frame a
    value moves a fixed fraction `k` of the way to its target (0.08 for
    element motion, 0.1 for the pointer), with no correction for the time
    between frames. Arithmetic is exact over the reals. */
module Smoothing {
  import opened RealArith

  function Abs(x: real): real {
    if x < 0.0 then -x else x
  }

  /** `v += (target - v) * k`: the gap to the target shrinks by the factor
      `1 - k`; with `0 <= k <= 1` the value neither overshoots nor moves
      away. */
  function Approach(current: real, target: real, k: real): (r: real)
    ensures target - r == Mul(1.0 - k, target - current)
    ensures current == target ==> r == target
    ensures 0.0 <= k <= 1.0 && current <= target ==> current <= r <= target
    ensures 0.0 <= k <= 1.0 && target <= current ==> target <= r <= current
  {
    ApproachStep(current, target, k);
    current + Mul(target - current, k)
  }

  lemma ApproachStep(current: real, target: real, k: real)
    ensures var r := current + Mul(target - current, k);
            && target - r == Mul(1.0 - k, target - current)
            && (current == target ==> r == target)
            && (0.0 <= k <= 1.0 && current <= target ==> current <= r <= target)
            && (0.0 <= k <= 1.0 && target <= current ==> target <= r <= current)
  {
    MulOneMinus(target - current, k);
    if current == target {
      MulZero(target - current, k);
    }
    if 0.0 <= k <= 1.0 && current <= target {
      MulWithin(target - current, k);
    }
    if 0.0 <= k <= 1.0 && target <= current {
      MulWithinNeg(target - current, k);
    }
  }

  /** `n` frames of smoothing towards a target that stays put. */
  function ApproachN(current: real, target: real, k: real, n: nat): real
    decreases n
  {
    if n == 0 then current else ApproachN(Approach(current, target, k), target, k, n - 1)
  }

  /** Closed form: after `n` frames the gap is `(1 - k)^n` times the
      initial gap, i.e. geometric convergence. */
  lemma {:induction false} ApproachNGap(current: real, target: real, k: real, n: nat)
    ensures target - ApproachN(current, target, k, n) == Mul(Pow(1.0 - k, n), target - current)
    decreases n
  {
    if n > 0 {
      var next := Approach(current, target, k);
      ApproachNGap(next, target, k, n - 1);
      // (1-k)^(n-1) * ((1-k) * gap) == ((1-k) * (1-k)^(n-1)) * gap
      MulAssoc(Pow(1.0 - k, n - 1), 1.0 - k, target - current);
      MulComm(Pow(1.0 - k, n - 1), 1.0 - k);
    } else {
      assert Pow(1.0 - k, n) == 1.0;
    }
  }

  lemma Pow092Bound()
    ensures Pow(0.92, 56) <= 0.01
  {
    var x := 0.92;
    assert Pow(x, 2) == 0.8464;
    PowAdd(x, 2, 2);
    assert Pow(x, 4) == 0.8464 * 0.8464;
    PowAdd(x, 4, 4);
    assert Pow(x, 8) <= 0.5133;
    PowAdd(x, 8, 8);
    MulBound(Pow(x, 8), Pow(x, 8), 0.5133, 0.5133);
    assert Pow(x, 16) <= 0.2635;
    PowAdd(x, 16, 16);
    MulBound(Pow(x, 16), Pow(x, 16), 0.2635, 0.2635);
    assert Pow(x, 32) <= 0.0695;
    PowAdd(x, 32, 16);
    MulBound(Pow(x, 32), Pow(x, 16), 0.0695, 0.2635);
    assert Pow(x, 48) <= 0.0184;
    PowAdd(x, 48, 8);
    MulBound(Pow(x, 48), Pow(x, 8), 0.0184, 0.5133);
  }

  lemma Pow09Bound()
    ensures Pow(0.9, 44) <= 0.01
  {
    var x := 0.9;
    assert Pow(x, 2) == 0.81;
    PowAdd(x, 2, 2);
    assert Pow(x, 4) == 0.6561;
    PowAdd(x, 4, 4);
    assert Pow(x, 8) == 0.6561 * 0.6561;
    assert Pow(x, 8) <= 0.4305;
    PowAdd(x, 8, 8);
    MulBound(Pow(x, 8), Pow(x, 8), 0.4305, 0.4305);
    assert Pow(x, 16) <= 0.1854;
    PowAdd(x, 16, 16);
    MulBound(Pow(x, 16), Pow(x, 16), 0.1854, 0.1854);
    assert Pow(x, 32) <= 0.0344;
    PowAdd(x, 32, 8);
    MulBound(Pow(x, 32), Pow(x, 8), 0.0344, 0.4305);
    assert Pow(x, 40) <= 0.0149;
    PowAdd(x, 40, 4);
    MulBound(Pow(x, 40), Pow(x, 4), 0.0149, 0.6561);
  }

  lemma ScaledAbs(p: real, g: real)
    requires 0.0 <= p <= 0.01
    ensures Abs(Mul(p, g)) <= 0.01 * Abs(g)
  {
    if g >= 0.0 {
      MulBound(p, g, 0.01, g);
      MulNonneg(p, g);
    } else {
      MulBound(p, -g, 0.01, -g);
      MulNonneg(p, -g);
      MulComm(p, -g);
      MulNeg(g, p);
      MulComm(g, p);
    }
  }

  /** Once `(1 - k)^n` is at most 1%, `n` frames bring any value within
      1% of its target. */
  lemma SettleWithin(current: real, target: real, k: real, n: nat)
    requires 0.0 <= Pow(1.0 - k, n) <= 0.01
    ensures Abs(target - ApproachN(current, target, k, n)) <= 0.01 * Abs(target - current)
  {
    ApproachNGap(current, target, k, n);
    ScaledAbs(Pow(1.0 - k, n), target - current);
  }

  /** With the element fraction 0.08 every channel is within 1% of a fixed
      target after 56 frames. */
  lemma ElementSettlesWithin56Frames(current: real, target: real)
    ensures Abs(target - ApproachN(current, target, 0.08, 56)) <= 0.01 * Abs(target - current)
  {
    Pow092Bound();
    assert 1.0 - 0.08 == 0.92;
    SettleWithin(current, target, 0.08, 56);
  }

  /** With the pointer fraction 0.1 the smoothed pointer is within 1% of a
      fixed target after 44 frames. */
  lemma PointerSettlesWithin44Frames(current: real, target: real)
    ensures Abs(target - ApproachN(current, target, 0.1, 44)) <= 0.01 * Abs(target - current)
  {
    Pow09Bound();
    assert 1.0 - 0.1 == 0.9;
    SettleWithin(current, target, 0.1, 44);
  }
}

=== FILE: theme.dfy ===
/** The dark/light theme pill of script.js: the starting theme comes
    from the saved `localStorage` value or, failing that, the operating
    system's colour-scheme preference; a click flips it and saves the new
    value under the key `"theme"`. Storage and the media query are inputs
    here, not I/O. */
module Theme {
  import opened Optional

  const DarkValue: string := "dark"
  const LightValue: string := "light"
  const MoonIcon: string := "fa-solid fa-moon"
  const SunIcon: string := "fa-solid fa-sun"

  /** What `setTheme` writes: the body's `dark` class, the label text, the
      icon's class name and the button's `aria-pressed` attribute. */
  datatype ThemeView = ThemeView(bodyDark: bool, labelText: string, iconClass: string, ariaPressed: string)

  /** The label, icon and `aria-pressed` all tell the same story as the
      body class. */
  predicate Coherent(v: ThemeView) {
    && (v.labelText == DarkValue <==> v.bodyDark)
    && (v.labelText == LightValue <==> !v.bodyDark)
    && (v.iconClass == MoonIcon <==> v.bodyDark)
    && (v.iconClass == SunIcon <==> !v.bodyDark)
    && (v.ariaPressed == "true" <==> v.bodyDark)
    && (v.ariaPressed == "false" <==> !v.bodyDark)
  }

  /** JavaScript's `String(b)` for a boolean. */
  function BoolText(b: bool): string {
    if b then "true" else "false"
  }

  function SetTheme(isDark: bool): (v: ThemeView)
    ensures v.bodyDark == isDark
    ensures Coherent(v)
  {
    ThemeView(isDark, if isDark then DarkValue else LightValue,
              if isDark then MoonIcon else SunIcon, BoolText(isDark))
  }

  /** `setTheme` called with `undefined`, on a body whose `dark` class is
      `bodyWasDark`: `classList.toggle("dark", undefined)` treats the force
      argument as absent and flips the class, the label and icon take their
      light forms, and `String(undefined)` goes to `aria-pressed`. */
  function SetThemeUndefined(bodyWasDark: bool): (v: ThemeView)
    ensures v.bodyDark == !bodyWasDark
    ensures !Coherent(v)
  {
    ThemeView(!bodyWasDark, LightValue, SunIcon, "undefined")
  }

  /** `saved ? saved === "dark" : prefersDark`. A missing or empty saved
      value is falsy and defers to the preference. The preference is
      `None` when `window.matchMedia` is missing: the `&&` then yields
      `undefined`, not `false`. */
  function StartDark(saved: Option<string>, prefersDark: Option<bool>): (d: Option<bool>)
    ensures saved.Some? && saved.value != [] ==> d == Some(saved.value == DarkValue)
    ensures (saved.None? || saved.value == []) ==> d == prefersDark
  {
    match saved
    case Some(v) => if v != [] then Some(v == DarkValue) else prefersDark
    case None => prefersDark
  }

  /** The page state right after the script runs, on a body whose `dark`
      class was `bodyWasDark` in the markup. */
  function Start(saved: Option<string>, prefersDark: Option<bool>, bodyWasDark: bool): (v: ThemeView)
    // a defined start state renders coherently, whatever the markup said
    ensures StartDark(saved, prefersDark).Some? ==>
              Coherent(v) && v.bodyDark == StartDark(saved, prefersDark).value
    // an undefined one flips the markup's class and leaves the view incoherent
    ensures StartDark(saved, prefersDark).None? ==> !Coherent(v) && v.bodyDark == !bodyWasDark
  {
    match StartDark(saved, prefersDark)
    case Some(d) => SetTheme(d)
    case None => SetThemeUndefined(bodyWasDark)
  }

  /** Without `matchMedia` and with nothing saved, a plain body turns dark
      while the pill reads "light". */
  lemma NoMatchMediaMismatch(saved: Option<string>, prefersDark: Option<bool>)
    requires (saved.None? || saved.value == []) && prefersDark.None?
    ensures var v := Start(saved, prefersDark, false);
            v.bodyDark && v.labelText == LightValue && v.iconClass == SunIcon
  {
  }

  /** Whatever the first render was, the first click leaves a coherent
      view: the click reads the body class, which is always a boolean. */
  lemma FirstClickCoherent(saved: Option<string>, prefersDark: Option<bool>, bodyWasDark: bool)
    ensures Coherent(Toggle(Start(saved, prefersDark, bodyWasDark)).view)
    ensures Toggle(Start(saved, prefersDark, bodyWasDark)).view.bodyDark
            == !Start(saved, prefersDark, bodyWasDark).bodyDark
  {
  }

  /** A click: the new state is the negation of the body class, and the
      value saved under `"theme"` names the new state. */
  datatype Toggled = Toggled(view: ThemeView, stored: string)

  function Toggle(v: ThemeView): (t: Toggled)
    ensures t.view.bodyDark == !v.bodyDark
    ensures Coherent(t.view)
    ensures t.stored == DarkValue <==> t.view.bodyDark
    ensures t.stored in {DarkValue, LightValue}
  {
    var isDark := !v.bodyDark;
    Toggled(SetTheme(isDark), if isDark then DarkValue else LightValue)
  }

  /** What a click saves is what the next page load starts from, whatever
      the operating system prefers. */
  lemma ToggleThenReload(v: ThemeView, prefersDark: Option<bool>, bodyWasDark: bool)
    ensures Start(Some(Toggle(v).stored), prefersDark, bodyWasDark) == Toggle(v).view
  {
  }

  /** Two clicks restore a coherent view exactly. */
  lemma ToggleTwice(v: ThemeView)
    requires Coherent(v)
    ensures Toggle(Toggle(v).view).view == v
  {
  }
}

=== FILE: typing.dfy ===
/** The hero-banner typing animation of `startTypingAnimation`
    (script.js): one call of the `typeText` closure is one `Step`. The
    state is the manager's `(currentRoleIndex, currentCharIndex, isDeleting)`
    triple; the text written to the banner is `"I am "` followed by a
    `substring(0, charIndex)` of the current role.

    The machine is stated for any non-empty list of roles `roles`; the page
    runs it on `Roles`. A role's `length` and `substring` indices are taken
    in characters, which agree with JavaScript's UTF-16 code units for
    roles made only of characters up to U+FFFF, as all of `Roles` are. */
module Typing {
  import opened Optional
  import opened JsText

  /** `CONFIG.roles`, in order. */
  const Roles: seq<string> :=
    ["a Web Developer", "a Software Developer", "a Mathie", "a Problem Solver", "an Innovator"]

  const Lead: string := "I am "

  /** `CONFIG.TYPING_SPEED`, `CONFIG.DELETING_SPEED`, `CONFIG.DELAY_BETWEEN_ROLES`, in ms. */
  const TypingSpeed: real := 100.0
  const DeletingSpeed: real := 50.0
  const DelayBetweenRoles: real := 1200.0

  datatype TypingState = TypingState(roleIndex: int, charIndex: int, isDeleting: bool)

  /** The invariant the animation keeps: the role index addresses a role and
      the character index lies in `[-1, |role| + 1]`. The two ends are
      really reached: typing stops one past the role's length and deleting
      one before zero. */
  predicate Valid(roles: seq<string>, s: TypingState) {
    && 0 <= s.roleIndex < |roles|
    && -1 <= s.charIndex <= |roles[s.roleIndex]| + 1
  }

  /** The state the constructor sets up. */
  const Initial: TypingState := TypingState(0, 0, false)

  /** The banner text is `"I am "` followed by a prefix of `role`. */
  predicate ShowsPrefixOf(text: string, role: string) {
    |Lead| <= |text| && text[..|Lead|] == Lead && text[|Lead|..] <= role
  }

  /** The first two branches of `typeText`: still typing the role, or
      still deleting it. These are the calls that write text. */
  predicate Writes(roles: seq<string>, s: TypingState)
    requires Valid(roles, s)
  {
    (!s.isDeleting && s.charIndex <= |roles[s.roleIndex]|) || (s.isDeleting && s.charIndex >= 0)
  }

  /** The state change of one `typeText` call: type a character, delete
      one, turn to deleting, or move on to the next role. */
  function Next(roles: seq<string>, s: TypingState): (r: TypingState)
    requires Valid(roles, s)
    ensures Valid(roles, r)
    // the role changes only when a deletion has run out, and then to the next role
    ensures r.roleIndex != s.roleIndex ==>
              s.isDeleting && !r.isDeleting && r.roleIndex == (s.roleIndex + 1) % |roles|
  {
    if !s.isDeleting && s.charIndex <= |roles[s.roleIndex]| then s.(charIndex := s.charIndex + 1)
    else if s.isDeleting && s.charIndex >= 0 then s.(charIndex := s.charIndex - 1)
    else if !s.isDeleting then s.(isDeleting := true)
    else TypingState((s.roleIndex + 1) % |roles|, s.charIndex, false)
  }

  /** The outcome of one `typeText` call: the next state and the text it
      writes to the banner, if any (the two turn-around branches write none). */
  datatype Tick = Tick(next: TypingState, shown: Option<string>)

  function Step(roles: seq<string>, s: TypingState): (t: Tick)
    requires Valid(roles, s)
    ensures Valid(roles, t.next)
    // the role changes only when a deletion has run out, and then to the next role
    ensures t.next.roleIndex != s.roleIndex ==>
              s.isDeleting && !t.next.isDeleting && t.next.roleIndex == (s.roleIndex + 1) % |roles|
    // text is written exactly when the character index moves, by one step in the phase's direction
    ensures t.shown.Some? <==> t.next.charIndex != s.charIndex
    ensures t.shown.Some? ==> t.next.isDeleting == s.isDeleting
    ensures t.shown.Some? && !s.isDeleting ==> t.next.charIndex == s.charIndex + 1
    ensures t.shown.Some? && s.isDeleting ==> t.next.charIndex == s.charIndex - 1
    // the written text is the lead-in followed by a prefix of the current role
    ensures t.shown.Some? ==> ShowsPrefixOf(t.shown.value, roles[s.roleIndex])
    ensures t.shown.Some? ==> |t.shown.value| == |Lead| + Clamp(s.charIndex, |roles[s.roleIndex]|)
  {
    var role := roles[s.roleIndex];
    Tick(Next(roles, s), if Writes(roles, s) then Some(Lead + Substring(role, 0, s.charIndex)) else None)
  }

  /** The delay in ms before the next `typeText` call, given the value
      `jitter` that `Math.random()` returns on a typing step. */
  function NextDelay(roles: seq<string>, s: TypingState, jitter: real): (d: real)
    requires Valid(roles, s)
    ensures Step(roles, s).shown.Some? && !s.isDeleting && 0.0 <= jitter < 1.0 ==>
              TypingSpeed <= d < TypingSpeed + 50.0
    ensures Step(roles, s).shown.Some? && s.isDeleting ==> d == DeletingSpeed
    ensures Step(roles, s).shown.None? && !s.isDeleting ==> d == DelayBetweenRoles
    ensures Step(roles, s).shown.None? && s.isDeleting ==> d == TypingSpeed
  {
    var role := roles[s.roleIndex];
    if !s.isDeleting && s.charIndex <= |role| then TypingSpeed + jitter * 50.0
    else if s.isDeleting && s.charIndex >= 0 then DeletingSpeed
    else if !s.isDeleting then DelayBetweenRoles
    else TypingSpeed
  }

  /** The state after `n` calls of `typeText`. */
  function Steps(roles: seq<string>, s: TypingState, n: nat): (r: TypingState)
    requires Valid(roles, s)
    ensures Valid(roles, r)
    decreases n
  {
    if n == 0 then s else Steps(roles, Next(roles, s), n - 1)
  }

  lemma {:induction false} StepsAdd(roles: seq<string>, s: TypingState, a: nat, b: nat)
    requires Valid(roles, s)
    ensures Steps(roles, s, a + b) == Steps(roles, Steps(roles, s, a), b)
    decreases a
  {
    if a > 0 {
      StepsAdd(roles, Next(roles, s), a - 1, b);
      assert Steps(roles, s, a + b) == Steps(roles, Next(roles, s), a - 1 + b);
    }
  }

  /** Running `a` calls to reach `t` and then `b` more to reach `u` is
      running `a + b` calls to reach `u`. */
  lemma StepsChain(roles: seq<string>, s: TypingState, a: nat, t: TypingState, b: nat, u: TypingState)
    requires Valid(roles, s) && Steps(roles, s, a) == t && Steps(roles, t, b) == u
    ensures Steps(roles, s, a + b) == u
  {
    StepsAdd(roles, s, a, b);
  }

  /** From any typing state the character index climbs one step per call to
      one past the role's length, without changing role or phase. */
  lemma {:induction false} TypingRun(roles: seq<string>, r: int, k: int)
    requires Valid(roles, TypingState(r, k, false))
    ensures Steps(roles, TypingState(r, k, false), |roles[r]| + 1 - k) == TypingState(r, |roles[r]| + 1, false)
    decreases |roles[r]| + 1 - k
  {
    if k <= |roles[r]| {
      assert Next(roles, TypingState(r, k, false)) == TypingState(r, k + 1, false);
      TypingRun(roles, r, k + 1);
    }
  }

  /** From any deleting state with `k >= 0` the character index falls one
      step per call to -1, without changing role or phase. */
  lemma {:induction false} DeletingRun(roles: seq<string>, r: int, k: int)
    requires Valid(roles, TypingState(r, k, true))
    ensures Steps(roles, TypingState(r, k, true), k + 1) == TypingState(r, -1, true)
    decreases k + 1
  {
    if k >= 0 {
      assert Next(roles, TypingState(r, k, true)) == TypingState(r, k - 1, true);
      DeletingRun(roles, r, k - 1);
    }
  }

  /** Typing that has run one past the end turns to deleting. */
  lemma TurnToDelete(roles: seq<string>, r: int)
    requires 0 <= r < |roles|
    ensures Steps(roles, TypingState(r, |roles[r]| + 1, false), 1) == TypingState(r, |roles[r]| + 1, true)
  {
    assert Next(roles, TypingState(r, |roles[r]| + 1, false)) == TypingState(r, |roles[r]| + 1, true);
  }

  /** Deleting that has run one before the start moves on to typing the
      next role. */
  lemma TurnToNextRole(roles: seq<string>, r: int)
    requires 0 <= r < |roles|
    ensures Steps(roles, TypingState(r, -1, true), 1) == TypingState((r + 1) % |roles|, -1, false)
  {
    assert Next(roles, TypingState(r, -1, true)) == TypingState((r + 1) % |roles|, -1, false);
  }

  /** The rest of a role: from any typing state `(r, k)` it takes
      `2 * |role| + 5 - k` calls to type the role out, turn round, delete it
      and land in the rest state of the next role, cyclically. */
  lemma RoleFinish(roles: seq<string>, r: int, k: int)
    requires Valid(roles, TypingState(r, k, false))
    ensures Steps(roles, TypingState(r, k, false), 2 * |roles[r]| + 5 - k)
            == TypingState((r + 1) % |roles|, -1, false)
  {
    var n := |roles[r]|;
    var s0 := TypingState(r, k, false);
    var s1 := TypingState(r, n + 1, false);
    var s2 := TypingState(r, n + 1, true);
    var s3 := TypingState(r, -1, true);
    var s4 := TypingState((r + 1) % |roles|, -1, false);
    var a := n + 1 - k;
    // type the rest of the role, then turn round
    TypingRun(roles, r, k);
    TurnToDelete(roles, r);
    StepsChain(roles, s0, a, s1, 1, s2);
    // delete it all
    DeletingRun(roles, r, n + 1);
    var b := n + 1 + 1;
    StepsChain(roles, s0, a + 1, s2, b, s3);
    // move on to the next role
    TurnToNextRole(roles, r);
    StepsChain(roles, s0, a + 1 + b, s3, 1, s4);
  }

  /** One whole role: from the rest state `(r, -1, typing)` it takes exactly
      `2 * |role| + 6` calls to type the role out, turn round, delete it
      and land in the rest state of the next role, cyclically. */
  lemma RoleCycle(roles: seq<string>, r: int)
    requires 0 <= r < |roles|
    ensures Steps(roles, TypingState(r, -1, false), 2 * |roles[r]| + 6)
            == TypingState((r + 1) % |roles|, -1, false)
  {
    RoleFinish(roles, r, -1);
  }

  /** The very first role on the page: from the constructor's state it
      takes 35 calls (15 characters of "a Web Developer") to reach the rest
      state of the second role. */
  lemma FirstRole(roles: seq<string>, s: TypingState)
    requires roles == Roles && s == Initial
    ensures Steps(roles, s, 35) == TypingState(1, -1, false)
  {
    assert |roles[0]| == 15;
    RoleFinish(roles, s.roleIndex, s.charIndex);
  }
}
